=== FILE: README.md ===
# Best-of wiki template generator — a Dafny model of its core

The generator builds the markdown tables of a yearly "best of" wiki page.
It reads the index thread of the year's nominations and checks its title.
From the index body it keeps the links that point to the forum and whose
text names an award category. For each nomination thread it renders one
table: a heading, a header row of column labels, a separator row, and one
row per top-level comment. The columns come from the category's list of
extractors. The tables are joined into one report.

This project models that core as pure functions over immutable data:

- `results.dfy` (`Results`): `Option` and `Result`.
- `sequences.dfy` (`Sequences`): order-preserving subsequences, the shape
  of the result of `select` and `reject`.
- `strings.dfy` (`Strings`): the Ruby string and array methods the core
  relies on. These are ASCII `downcase`, `include?`, `start_with?`, `sub`
  with a literal pattern, `Array#join`, `split('/')` (trailing empty fields
  dropped) and `Integer#to_s`.
- `markdown.dfy` (`Markdown`): the parsed document as a node tree, and
  `node_text`. It also has the first-in first-out queue walk of
  `extract_links`, both as a function and as the loop itself. Beside the walk
  sits a document-order reference reading, and lemmas relate the two.
- `patterns.dfy` (`Patterns`): the three regular expressions, written out
  with Ruby's matching rules (leftmost match, greedy `+`, ASCII `\w`):
  - the host rewrite `/\w+\.reddit/` → `www.reddit`;
  - the mention scan `/\bu\/([\w\d\-_]+)/i`;
  - the URL filter `/http.?:\/\/(\w+\.)?redd/`.
- `columns.dfy` (`Columns`): `ThreadConfig`, its construction check, and the
  nine extractors. Each extractor is one `Column` value with two call forms:
  - `Label` is the call without a batch;
  - `Cells` is the call with a batch, as the source runs it. A user lookup
    or a date lookup is made once per batch.

  `Cell` is the same column computed for one comment on its own. The
  lemmas show the batched form agrees with it comment by comment.
- `report.dfy` (`Report`): the category matching of the index links, the
  title check, table assembly and rendering, and the joined report.

The database lookups are values handed in by the caller, in a `Store`:
- the user names, in the order the query returns them;
- maps from short identifier to creation date, one for comments and one for
  posts;
- `URI.parse(url).path`, as a function.

Fetching a thread is a function from its URL to its comments. Each comment
carries its raw body (the mention scan reads it) and its parsed tree.

Errors are `Result` failures:
- `UndefinedFunctions` when a configured column name is not an extractor;
- `NotTheIndex` when the index title fails the check;
- `MissingPathSegment` for the `nil.size` crash in `date_comments` and
  `date_posts`. It happens when a link's path has too few segments.

Three behaviours of the code are worth stating plainly:

- `extract_links` returns links breadth-first: it keeps a first-in
  first-out queue (`shift` and `<<`). `Markdown.BreadthFirst` states that
  order. `Markdown.ExtractedPermutesExposed` shows that the records are,
  with multiplicity, those of a document-order reading.
- The `ThreadConfig` constructor accepts an empty list of column names.
  Such a table has a heading, an empty header row, an empty separator and
  no rows.
- In `date_comments` and `date_posts`, a link whose path lacks the segment
  the column reads (`[-1]` or `[-2]`) makes `slug.size` fail on `nil`,
  which aborts the run. The model reports this as `MissingPathSegment`.

## Model

| member | source | states |
|---|---|---|
| Markdown.ExtractLinksByQueue | markdown_utils.rb:2-24 | the queue loop terminates and returns the walk's result; every returned URL starts with "http"; there is at most one record per link node of the tree |
| Markdown.BreadthFirst | markdown_utils.rb:6-19 | draining a queue level yields the records of that level in queue order, then the walk of the next level (children of descended nodes, in source order) |
| Markdown.WalkPrefix | markdown_utils.rb:6-19 | a first-in first-out walk of `q + r` yields the records of `q`, then the walk of `r` followed by the children of `q` |
| Markdown.ExtractedPermutesExposed | markdown_utils.rb:9-19 | the extracted records are exactly, with multiplicity, the http links outside block quotes, code and other links in a document-order reading; only the order differs |
| Markdown.ExtractedAreHttp | markdown_utils.rb:13-14 | every extracted link's URL starts with "http" |
| Markdown.ExtractedAtMostLinkNodes | markdown_utils.rb:6-21 | the number of extracted records is at most the number of link nodes in the tree |
| Markdown.QuotedContentIgnored | markdown_utils.rb:15 | replacing the contents of any block quote, code span or code block (not inside a link) with anything leaves the extracted links unchanged |
| Markdown.NestedLinksIgnored | markdown_utils.rb:10-19 | a link node's children are never walked: replacing them by any children with the same text leaves the extracted links unchanged |
| Markdown.ExtractedRecords | markdown_utils.rb:14 | every extracted record is the URL, title and `node_text` of some link node of the document |
| Markdown.EquivalentWalk | markdown_utils.rb:6-21 | the walk depends only on the node kinds along the paths it descends and on the text of link nodes |
| Markdown.ChildrenTextAppend | markdown_utils.rb:26-35 | `node_text` concatenates left to right: the text of `a + b` is the text of `a` followed by the text of `b` |
| Markdown.NoTextLeavesNoText | markdown_utils.rb:26-35 | a subtree without text nodes has empty `node_text` |
| Strings.Lower | thread_config.rb:44 | `downcase` keeps the length, maps each upper-case ASCII letter to lower case and leaves every other character alone |
| Strings.Sub | thread_config.rb:76 | `sub` with a literal pattern replaces only the first occurrence and keeps the text before and after it; with no occurrence the string is unchanged |
| Strings.JoinSplitOn | thread_config.rb:106 | joining the fields of a split with the separator restores the string |
| Strings.SplitOnJoin | thread_config.rb:106 | splitting a join of separator-free fields gives the fields back |
| Strings.RubySplit | thread_config.rb:106 | `split('/')` gives the fields between separators with the trailing empty fields dropped: a prefix of the full split whose remaining fields are all empty; no field holds the separator and the last one is never empty |
| Strings.ParseNatToString | generate_markdown.rb:53 | `Integer#to_s` of a natural number reads back as that number |
| Strings.NatToStringLength | generate_markdown.rb:53 | `Integer#to_s` of a number has at most k digits exactly when the number is below 10^k |
| Patterns.FirstHostMatch | thread_config.rb:66 | the leftmost position where `\w+\.reddit` matches, and no match before it |
| Patterns.RewriteRedditHost | thread_config.rb:66 | without a match the URL is unchanged; otherwise the text before the leftmost match is kept, the matched host becomes `www.reddit`, and the rest follows |
| Patterns.RewriteIdempotent | thread_config.rb:66 | rewriting the host twice gives the same URL as rewriting it once |
| Patterns.FirstMention | thread_config.rb:89 | the leftmost position at or after `p` where `\bu/` followed by a name character matches, and none exactly when nothing matches there |
| Patterns.MatchPositions | thread_config.rb:89 | the matches `scan` uses are matches, in increasing order; the first is the leftmost match, and there are none exactly when nothing matches |
| Patterns.MatchesResume | thread_config.rb:89 | after the leftmost match, `scan` resumes where that match's capture ends |
| Patterns.MentionsFrom | thread_config.rb:89 | the k-th scanned name is the capture at the k-th match; nothing is found exactly when no position matches, and the first name is the leftmost match's; names are non-empty and contain only `[\w-]` |
| Patterns.NoSlashNoMentions | thread_config.rb:89 | a body that contains no `u/` in any case mentions nobody |
| Patterns.RedditUrlFrom | generate_markdown.rb:59-60 | the URL filter is true exactly when `http.?://(\w+\.)?redd` matches at some position |
| Columns.ColumnNamed | thread_config.rb:46 | a name resolves to the extractor with that name, and to none when no extractor has it |
| Columns.Label | thread_config.rb:54-175 | each label is non-empty, and the label is "Date" exactly for the three date columns |
| Columns.Undefined | thread_config.rb:46 | `reject` keeps exactly the names that are not extractors, in their given order and with their repetitions (an ordered filter with exact counts) |
| Columns.NewThreadConfig | thread_config.rb:43-50 | construction fails exactly when some name is not an extractor, and the error carries the rejected names as `reject` lists them; on success the keyword is downcased, the header kept and the extractors follow the names in order |
| Columns.NumberedFrom | thread_config.rb:67-69 | the i-th link is rendered `[TODO i+1](url)` |
| Columns.ThreadLinkCellCases | thread_config.rb:63-77 | no links gives "LINKS NOT FOUND", one link `[TODO](url)`, k ≥ 2 links the numbered links joined by ", "; "LINKS NOT FOUND" appears exactly when there are no links |
| Columns.SingleLinkLabel | thread_config.rb:76 | `sub('TODO 1', 'TODO')` turns `[TODO 1](url)` into `[TODO](url)` whatever the URL |
| Columns.Uniq | thread_config.rb:89 | `uniq` keeps the same elements, drops duplicates, and keeps first occurrences in order |
| Columns.LowerAll | thread_config.rb:89 | `map(&:downcase)` lowercases each name in place |
| Columns.UserDisplay | thread_config.rb:180 | a name shows as "u/" + the stored spelling of the last user row whose lowercase form is that name, and as "" exactly when no row matches |
| Columns.LookUpAgrees | thread_config.rb:179-181 | the map built by `look_up_users` gives every wanted name what `UserDisplay` gives it, "" when absent |
| Columns.MapCellAgrees | thread_config.rb:95-97 | joining the map lookups of a comment's names equals joining their individual displays |
| Columns.AuthorCells | thread_config.rb:85-98 | the batched `author` column has one cell per comment, each equal to that comment's names looked up on their own and joined by ", " |
| Columns.Flatten | thread_config.rb:91 | the flattened batch holds every name of every comment and nothing else |
| Columns.PickSegment | thread_config.rb:106-129 | `[-1]` exists exactly when there is a segment and is the last one; `[-2]` exists exactly when there are two and is the second to last |
| Columns.LastShortSegment | thread_config.rb:151 | the segment found is the last one of length at most 7; none exactly when all segments are longer |
| Columns.KeepShort | thread_config.rb:107 | `reject` keeps the picked identifiers of length at most 7, in their order (a subsequence), each exactly as often as it was picked, and nothing longer |
| Columns.Slugs | thread_config.rb:103-153 | `date_comments` and `date_posts` fail exactly when some link path lacks the segment they read; otherwise every identifier is at most 7 long; `date` never fails and reads, for each link in order, the last short segment of its path |
| Columns.SlugsPickShort | thread_config.rb:103-131 | on success, `date_comments` and `date_posts` read the segment picked from each link path that is at most 7 long, in link order, each as often as it was picked |
| Columns.DateText | thread_config.rb:117 | a date renders with at least ten characters, all digits or dashes |
| Columns.FieldWidth | thread_config.rb:117 | a `%Y`/`%m`/`%d` field is exactly its width (4 or 2) when the number fits in it, and otherwise the number's own digits with no leading zero |
| Columns.DateTextReadBack | thread_config.rb:117 | split at its dashes, a rendered date is three digit fields that read back as its year, month and day; the year is exactly four digits below 10000 and the month and day exactly two below 100, and a wider field never starts with a zero |
| Columns.SlugText | thread_config.rb:116-118 | an identifier with a stored date renders as that date's text; `nil` and an identifier without a stored date render as "", and only those do |
| Columns.DateCellNotFoundIff | thread_config.rb:112-119 | a date cell is the column's NOT FOUND marker exactly when no identifier was read |
| Columns.DateCellFields | thread_config.rb:116-118 | split at its commas, a date cell with identifiers has one field per identifier, in order: that identifier's rendered date or "", after the first led by the space of ", " |
| Columns.GenericDateNotFound | thread_config.rb:145-167 | `date` never fails and shows "POST/COMMENT NOT FOUND" exactly for comments without extracted links |
| Columns.BatchSlugs | thread_config.rb:103-153 | the batch of identifiers fails exactly when one comment's link list fails, and otherwise holds each comment's identifiers in order |
| Columns.Restrict | thread_config.rb:110 | `where(id36: ...)` keeps exactly the stored identifiers that were asked for, with their dates |
| Columns.BatchDatesAgree | thread_config.rb:155-157 | for an identifier of the batch, the batched query renders the same text as the full table; in `date` a post date shadows a comment date |
| Columns.DateCells | thread_config.rb:100-120 | a batched date column fails exactly when some comment's cell would, and otherwise gives one cell per comment equal to that comment's own cell |
| Columns.Cell | thread_config.rb:53-177 | only `date_comments` and `date_posts` can fail, and only with a missing path segment; `nomination_author` is "u/" + author; `reason` and `why` are "TODO" |
| Columns.Cells | thread_config.rb:53-177 | an extractor called with a batch fails exactly when some comment's cell fails, and otherwise returns one cell per comment, in order, each that comment's cell |
| Report.FirstCategory | generate_markdown.rb:62 | the category found is the first in configuration order whose keyword the text contains; none exactly when no keyword matches |
| Report.Classify | generate_markdown.rb:59-65 | a link gets a category exactly when it passes both filters, and it gets the first matching one |
| Report.KeepSound | generate_markdown.rb:59-66 | every kept link carries the category its classification gave it |
| Report.KeepIsSubsequence | generate_markdown.rb:59-66 | the kept links appear among the input links in the same order |
| Report.KeepCounts | generate_markdown.rb:59-66 | a classified link is kept exactly as often as it occurs; an unclassified one never |
| Report.SelectionSound | generate_markdown.rb:59-66 | each nomination's link matches the URL pattern and its lowercased text contains the keyword of its category, which is the first such category |
| Report.SelectionIsOrderedFilter | generate_markdown.rb:59-66 | the nominations' links are an order-preserving subsequence of the index links, and are exactly the links passing both filters, each as often as it occurs |
| Report.Transpose | generate_markdown.rb:88 | `transpose`: row i, column j is column j's entry i; no columns give no rows |
| Report.TransposeTwice | generate_markdown.rb:88 | transposing twice gives back the columns |
| Report.ColumnCells | generate_markdown.rb:83-85 | calling each extractor with the batch fails exactly when some cell fails; otherwise there is one column per extractor, with one cell per comment |
| Report.BuildTable | generate_markdown.rb:70-90 | the table fails exactly when some cell fails; otherwise its title is the category header, its labels are the extractors' labels, and row i column j is extractor j's cell for comment i (no rows when there are no columns) |
| Report.RenderedLines | generate_markdown.rb:74-89 | read line by line, a table is its `###` heading, a blank line, the header row, the separator, and one line per row; with no rows it ends with a line break after the separator |
| Report.RenderedHeading | generate_markdown.rb:74 | a rendered table starts with "###", the header and a blank line |
| Report.ZeroComments | generate_markdown.rb:74-90 | a thread without comments renders the heading, the header row and the separator, each followed by a line break, and nothing else |
| Report.SeparatorLength | generate_markdown.rb:78 | the separator of n ≥ 1 columns is 4n − 1 characters: n "---" joined by "|" |
| Report.RenderNomination | generate_markdown.rb:70-91 | a nomination's markdown fails exactly when its table fails, and otherwise is the rendering of its built table (whose lines Report.RenderedLines gives back), opening with its category's heading |
| Report.RenderAll | generate_markdown.rb:41-43 | all tables render in order, or the run fails with the error of the first nomination that fails |
| Report.GenerateReport | generate_markdown.rb:35-66 | a title without the year or the word "index" fails with `NotTheIndex`; otherwise the run fails exactly when some nomination's table fails; with no nominations the report is empty |
| Report.ReportLayout | generate_markdown.rb:41-43 | a successful report is, in index order, the rendering of each nomination's built table, each opening with its category's heading, joined by "\n\n---\n\n" |

## Left out

- The database connection and the `Comment`, `Post` and `User` models (thread_config.rb:5-35): foreign calls. The query results are values in `Store`.
- The SQL `lower(username)` comparison, and `created_time.to_date`: the user names are a sequence compared with ASCII lowercasing, and a date is a `CalendarDate` value.
- `Commonmarker.parse`: a third-party parser. A comment body is given both as text and as its parsed tree, with the node types link, text, block quote, code, code block and other.
- `URI.parse(url).path`: a library call, given as a function in `Store`. Its exceptions on malformed URLs and a `nil` path are not modelled.
- `fetch_reddit_post` and the JSON navigation of its result (fetches at generate_markdown.rb:50 and 71, JSON navigation at 52, 57 and 81, the fetch itself at 94-101): network I/O. Fetching is a function from a URL to comments, and the index post is a title and a tree.
- Printing, timing and the terminal bell (generate_markdown.rb:45, 103-106): output only.
- `respond_to?` and `method`: the source accepts the name of any public method of `ThreadConfig`. The model accepts exactly the nine extractor names.
- Strings.Lower: folds ASCII letters only, while Ruby's `downcase` also folds non-ASCII letters.
- Patterns.MentionsFrom: the word boundary `\b` is taken over ASCII word characters. Ruby's `\w` is `[a-zA-Z0-9_]` by default, as here, but its `\b` follows Unicode word rules, so the model finds a mention in "éu/bob" and Ruby does not.
- Columns.DateText: renders every natural-number year as Ruby's `Date#to_s` does, padded to four digits and unsigned, so 12345 gives "12345-01-01". Negative years, which Ruby writes with a leading '-', cannot be expressed because `CalendarDate.year` is a `nat`.
- Columns.SlugText: the store's identifiers are assumed never to be NULL. In `date`, a `nil` identifier reaches the query, and `where(id36: [..., nil])` also matches rows whose `id36` is NULL, so such a row would give the `nil` identifier a date. `map<string, CalendarDate>` has no `nil` key, so the model always renders `nil` as "".
- Columns.Label: its contract states the shape of the labels, not each label string; the strings are in its definition.
- Columns.Cell: its own contract covers failures, `nomination_author`, `reason` and `why`. The `thread_link` and `author` cells are stated by Columns.ThreadLinkCellCases and Columns.AuthorCells. A date cell's contents are stated by Columns.DateCellNotFoundIff, Columns.DateCellFields, Columns.SlugText and Columns.DateTextReadBack, over the identifiers Columns.Slugs reads.
- Report.GenerateReport: does not say which error a failing table reports; Report.RenderAll states that it is the first failing nomination's.

=== FILE: columns.dfy ===
/**
 The column extractors of a nomination table (`ThreadConfig`).

 In the source every extractor is a method with two call forms: without a
 batch it returns the column's header label, with a batch of comments it
 returns one cell per comment. Here a column is a value of `Column`; `Label`
 is the first call form and `Cells` the second. The database lookups the
 extractors make are replaced by a `Store` value handed in by the caller.
 */
module Columns {
  import opened Results
  import opened Strings
  import opened Markdown
  import opened Patterns
  import opened Sequences

  // ---------------------------------------------------------------------------
  // Inputs

  /** A comment of a nomination thread: its author, its raw markdown body, and
      the parse of that body (the parser itself is not modelled). */
  datatype Comment = Comment(author: string, body: string, tree: Node)

  /** A calendar date, the value of `created_time.to_date`. */
  datatype CalendarDate = CalendarDate(year: nat, month: nat, day: nat)

  /** The read-only store behind the extractors: the `users` table as its
      query returns the user names, the creation dates of comments and posts
      by short identifier, and `URI.parse(url).path`. */
  datatype Store = Store(
    users: seq<string>,
    commentDates: map<string, CalendarDate>,
    postDates: map<string, CalendarDate>,
    path: string -> string)

  /** Why a run stops. */
  datatype Error =
    | UndefinedFunctions(names: seq<string>)  // a configured column name is not an extractor
    | NotTheIndex(year: int)                  // the index thread's title fails the sanity check
    | MissingPathSegment                      // `nil.size`: a link path had too few segments

  function Get<K, V>(m: map<K, V>, k: K, default: V): V {
    if k in m then m[k] else default
  }

  // ---------------------------------------------------------------------------
  // The registry of extractors

  datatype Column =
    | NominationAuthor
    | ThreadLink
    | Examples
    | Author
    | DateComments
    | DatePosts
    | Date
    | Reason
    | Why

  /** The method name under which a column is configured. */
  function Name(c: Column): string {
    match c
    case NominationAuthor => "nomination_author"
    case ThreadLink => "thread_link"
    case Examples => "examples"
    case Author => "author"
    case DateComments => "date_comments"
    case DatePosts => "date_posts"
    case Date => "date"
    case Reason => "reason"
    case Why => "why"
  }

  /** The extractor a configured name refers to, if any. */
  function ColumnNamed(name: string): (r: Option<Column>)
    ensures r.Some? ==> Name(r.value) == name
    ensures r.None? ==> forall c: Column :: Name(c) != name
  {
    if name == "nomination_author" then Some(NominationAuthor)
    else if name == "thread_link" then Some(ThreadLink)
    else if name == "examples" then Some(Examples)
    else if name == "author" then Some(Author)
    else if name == "date_comments" then Some(DateComments)
    else if name == "date_posts" then Some(DatePosts)
    else if name == "date" then Some(Date)
    else if name == "reason" then Some(Reason)
    else if name == "why" then Some(Why)
    else None
  }

  /** The header label: the extractor called without a batch. */
  function Label(c: Column): (r: string)
    ensures r != []
    ensures r == "Date" <==> c.DateComments? || c.DatePosts? || c.Date?
  {
    match c
    case NominationAuthor => "Nominated by"
    case ThreadLink => "Thread/Link"
    case Examples => "Example(s)"
    case Author => "User"
    case DateComments => "Date"
    case DatePosts => "Date"
    case Date => "Date"
    case Reason => "Reason"
    case Why => "Why"
  }

  // ---------------------------------------------------------------------------
  // ThreadConfig.new

  /** A category: the keyword that selects its nomination threads, the table
      heading, and the columns in order. */
  datatype ThreadConfig = ThreadConfig(keyword: string, header: string, funcs: seq<Column>)

  /** The configured names that are not extractors, in their given order. */
  function Undefined(names: seq<string>): (r: seq<string>)
    ensures forall n :: n in r <==> n in names && ColumnNamed(n).None?
    ensures |r| <= |names|
    ensures IsSubsequence(r, names)
    ensures forall n :: multiset(r)[n] == if ColumnNamed(n).None? then multiset(names)[n] else 0
  {
    if names == [] then []
    else
      var rest := Undefined(names[1..]);
      assert names == [names[0]] + names[1..];
      if ColumnNamed(names[0]).None? then
        var r := [names[0]] + rest;
        assert r[1..] == rest;
        r
      else
        SubsequenceSkip(rest, names);
        rest
  }

  function Resolve(names: seq<string>): (r: seq<Column>)
    requires forall i :: 0 <= i < |names| ==> ColumnNamed(names[i]).Some?
    ensures |r| == |names|
    ensures forall i :: 0 <= i < |names| ==> Name(r[i]) == names[i]
  {
    if names == [] then [] else [ColumnNamed(names[0]).value] + Resolve(names[1..])
  }

  /** `ThreadConfig.new(keyword:, header:, func_names:)`: fails, naming the
      offenders, when some name is not an extractor. */
  function NewThreadConfig(keyword: string, header: string, funcNames: seq<string>): (r: Result<ThreadConfig, Error>)
    ensures r.Failure? <==> exists i :: 0 <= i < |funcNames| && ColumnNamed(funcNames[i]).None?
    ensures r.Failure? ==> r.error.UndefinedFunctions? && r.error.names != []
    ensures r.Failure? ==> forall n :: n in r.error.names <==> n in funcNames && ColumnNamed(n).None?
    ensures r.Failure? ==> r.error.names == Undefined(funcNames)
    ensures r.Success? ==> r.value.keyword == Lower(keyword) && r.value.header == header
    ensures r.Success? ==> |r.value.funcs| == |funcNames|
    ensures r.Success? ==> forall i :: 0 <= i < |funcNames| ==> Name(r.value.funcs[i]) == funcNames[i]
  {
    var invalid := Undefined(funcNames);
    if invalid != [] then
      assert invalid[0] in funcNames && ColumnNamed(invalid[0]).None?;
      assert exists i :: 0 <= i < |funcNames| && funcNames[i] == invalid[0];
      Failure(UndefinedFunctions(invalid))
    else
      assert forall i :: 0 <= i < |funcNames| ==> funcNames[i] !in invalid;
      Success(ThreadConfig(Lower(keyword), header, Resolve(funcNames)))
  }

  // ---------------------------------------------------------------------------
  // nomination_author, reason, why

  function NominationAuthorCell(c: Comment): string {
    "u/" + c.author
  }

  const Placeholder := "TODO"

  // ---------------------------------------------------------------------------
  // thread_link and examples

  /** The link URLs of a parsed body, host rewritten to `www.reddit`. */
  function ThreadUrls(tree: Node): (r: seq<string>)
    ensures |r| == |ExtractLinks(tree)|
    ensures forall i :: 0 <= i < |r| ==> r[i] == RewriteRedditHost(ExtractLinks(tree)[i].url)
  {
    var links := ExtractLinks(tree);
    seq(|links|, i requires 0 <= i < |links| => RewriteRedditHost(links[i].url))
  }

  function NumberedLink(n: nat, url: string): string {
    "[TODO " + NatToString(n) + "](" + url + ")"
  }

  /** `map.with_index { "[TODO #{i + 1}](#{url})" }`, numbering from `k + 1`. */
  function NumberedFrom(urls: seq<string>, k: nat): (r: seq<string>)
    ensures |r| == |urls|
    ensures forall i :: 0 <= i < |urls| ==> r[i] == NumberedLink(k + i + 1, urls[i])
  {
    if urls == [] then [] else [NumberedLink(k + 1, urls[0])] + NumberedFrom(urls[1..], k + 1)
  }

  function ThreadLinkCell(tree: Node): string {
    var links := NumberedFrom(ThreadUrls(tree), 0);
    if links == [] then "LINKS NOT FOUND"
    else if |links| != 1 then Join(links, ", ")
    else Sub(links[0], "TODO 1", "TODO")
  }

  /** The three shapes of a `thread_link` cell. */
  lemma ThreadLinkCellCases(tree: Node)
    ensures var links := ExtractLinks(tree);
      && (|links| == 0 ==> ThreadLinkCell(tree) == "LINKS NOT FOUND")
      && (|links| == 1 ==> ThreadLinkCell(tree) == "[TODO](" + RewriteRedditHost(links[0].url) + ")")
      && (|links| >= 2 ==>
            ThreadLinkCell(tree) ==
            Join(seq(|links|, i requires 0 <= i < |links| =>
                       "[TODO " + NatToString(i + 1) + "](" + RewriteRedditHost(links[i].url) + ")"), ", "))
    ensures ThreadLinkCell(tree) == "LINKS NOT FOUND" <==> ExtractLinks(tree) == []
  {
    var links := ExtractLinks(tree);
    var urls := ThreadUrls(tree);
    var numbered := NumberedFrom(urls, 0);
    if |urls| == 1 {
      SingleLinkLabel(urls[0]);
      assert ThreadLinkCell(tree)[0] == '[';
    } else if |urls| >= 2 {
      assert numbered == seq(|links|, i requires 0 <= i < |links| =>
                               "[TODO " + NatToString(i + 1) + "](" + RewriteRedditHost(links[i].url) + ")");
      assert numbered[0][0] == '[';
      assert Join(numbered, ", ") == numbered[0] + ", " + Join(numbered[1..], ", ");
      assert Join(numbered, ", ")[0] == '[';
    }
  }

  /** `"[TODO 1](url)".sub('TODO 1', 'TODO')` is `"[TODO](url)"`, whatever the URL. */
  lemma SingleLinkLabel(url: string)
    ensures Sub(NumberedLink(1, url), "TODO 1", "TODO") == "[TODO](" + url + ")"
  {
    var s := NumberedLink(1, url);
    assert NatToString(1) == "1";
    assert s == "[TODO 1](" + url + ")";
    assert OccursAt(s, "TODO 1", 1);
    assert s[0] == '[';
    assert !OccursAt(s, "TODO 1", 0);
    var i := IndexFrom(s, "TODO 1", 0);
    assert i == Some(1);
    assert s[..1] + "TODO" + s[7..] == "[TODO](" + url + ")";
  }

  // ---------------------------------------------------------------------------
  // author

  /** `xs.uniq`: duplicates removed, first occurrences kept in order. */
  function Uniq(xs: seq<string>): (r: seq<string>)
    ensures forall x :: x in r <==> x in xs
    ensures forall i, j :: 0 <= i < j < |r| ==> r[i] != r[j]
    ensures forall i, j :: 0 <= i < j < |r| ==> FirstIndex(xs, r[i]) < FirstIndex(xs, r[j])
  {
    if xs == [] then []
    else
      var init := xs[..|xs| - 1];
      var last := xs[|xs| - 1];
      var p := Uniq(init);
      assert xs == init + [last];
      FirstIndexPrefix(xs, init, p);
      if last in p then p
      else
        FirstIndexOfLast(xs, init, last);
        p + [last]
  }

  /** The first position of `x` in `xs`. */
  function FirstIndex(xs: seq<string>, x: string): (k: nat)
    requires x in xs
    ensures k < |xs| && xs[k] == x
    ensures forall j :: 0 <= j < k ==> xs[j] != x
  {
    if xs[0] == x then 0 else 1 + FirstIndex(xs[1..], x)
  }

  lemma FirstIndexPrefix(xs: seq<string>, init: seq<string>, p: seq<string>)
    requires |init| < |xs| && init == xs[..|init|]
    requires forall x :: x in p ==> x in init
    ensures forall x :: x in p ==> FirstIndex(xs, x) == FirstIndex(init, x)
  {
    forall x | x in p ensures FirstIndex(xs, x) == FirstIndex(init, x) {
      var a, b := FirstIndex(xs, x), FirstIndex(init, x);
      assert xs[b] == init[b] == x;
      assert a <= b;
      assert init[a] == xs[a] == x;
    }
  }

  lemma FirstIndexOfLast(xs: seq<string>, init: seq<string>, last: string)
    requires xs == init + [last] && last !in init
    ensures FirstIndex(xs, last) == |init|
  {
    var a := FirstIndex(xs, last);
  }

  function LowerAll(xs: seq<string>): (r: seq<string>)
    ensures |r| == |xs|
    ensures forall i :: 0 <= i < |xs| ==> r[i] == Lower(xs[i])
  {
    if xs == [] then [] else [Lower(xs[0])] + LowerAll(xs[1..])
  }

  /** The distinct usernames mentioned in a body, lowercased, in order of
      first mention. */
  function MentionedNames(body: string): seq<string> {
    Uniq(LowerAll(Mentions(body)))
  }

  /** What the user store shows for a lowercased name: "u/" and the stored
      spelling of the last matching user row, or "" when no row matches. */
  function UserDisplay(users: seq<string>, name: string): (r: string)
    ensures r != "" ==> exists j :: 0 <= j < |users| && Lower(users[j]) == name && r == "u/" + users[j]
                                   && forall k :: j < k < |users| ==> Lower(users[k]) != name
    ensures r == "" <==> forall j :: 0 <= j < |users| ==> Lower(users[j]) != name
  {
    if users == [] then ""
    else
      var later := UserDisplay(users[1..], name);
      if later != "" then later
      else if Lower(users[0]) == name then "u/" + users[0]
      else ""
  }

  /** `look_up_users`: the rows whose lowercased name is wanted, as a map from
      that name to "u/" + the stored spelling; a later row replaces an earlier. */
  function LookUpUsers(users: seq<string>, wanted: set<string>): map<string, string> {
    LookUpFrom(users, wanted, map[])
  }

  function LookUpFrom(users: seq<string>, wanted: set<string>, acc: map<string, string>): map<string, string> {
    if users == [] then acc
    else
      var name := Lower(users[0]);
      LookUpFrom(users[1..], wanted, if name in wanted then acc[name := "u/" + users[0]] else acc)
  }

  lemma {:induction false} LookUpFromAgrees(users: seq<string>, wanted: set<string>, acc: map<string, string>, k: string)
    requires k in wanted
    ensures Get(LookUpFrom(users, wanted, acc), k, "") ==
              if UserDisplay(users, k) != "" then UserDisplay(users, k) else Get(acc, k, "")
  {
    if users != [] {
      var name := Lower(users[0]);
      var acc' := if name in wanted then acc[name := "u/" + users[0]] else acc;
      LookUpFromAgrees(users[1..], wanted, acc', k);
    }
  }

  /** The batched lookup gives every wanted name what a lookup of that name
      alone would give. */
  lemma LookUpAgrees(users: seq<string>, wanted: set<string>, k: string)
    requires k in wanted
    ensures Get(LookUpUsers(users, wanted), k, "") == UserDisplay(users, k)
  {
    LookUpFromAgrees(users, wanted, map[], k);
  }

  /** The cell for a list of lowercased names, each looked up on its own. */
  function DisplayCell(users: seq<string>, names: seq<string>): string {
    Join(seq(|names|, k requires 0 <= k < |names| => UserDisplay(users, names[k])), ", ")
  }

  /** The `author` cell of one comment, looked up name by name. */
  function AuthorCell(users: seq<string>, body: string): string {
    DisplayCell(users, MentionedNames(body))
  }

  /** `authors.map { |author| user_map[author] }.join(', ')`: a name missing
      from the map renders as "". */
  function MapCell(userMap: map<string, string>, names: seq<string>): string {
    Join(seq(|names|, k requires 0 <= k < |names| => Get(userMap, names[k], "")), ", ")
  }

  lemma MapCellAgrees(users: seq<string>, wanted: set<string>, names: seq<string>)
    requires forall k :: 0 <= k < |names| ==> names[k] in wanted
    ensures MapCell(LookUpUsers(users, wanted), names) == DisplayCell(users, names)
  {
    var userMap := LookUpUsers(users, wanted);
    forall k | 0 <= k < |names| ensures Get(userMap, names[k], "") == UserDisplay(users, names[k]) {
      LookUpAgrees(users, wanted, names[k]);
    }
    assert seq(|names|, k requires 0 <= k < |names| => Get(userMap, names[k], ""))
        == seq(|names|, k requires 0 <= k < |names| => UserDisplay(users, names[k]));
  }

  /** `flatten`: every comment's names, and nothing else. */
  function Flatten(xss: seq<seq<string>>): (r: seq<string>)
    ensures forall i, x :: 0 <= i < |xss| && x in xss[i] ==> x in r
    ensures forall x :: x in r ==> exists i :: 0 <= i < |xss| && x in xss[i]
  {
    if xss == [] then []
    else
      var rest := Flatten(xss[1..]);
      assert forall i :: 0 <= i < |xss| - 1 ==> xss[1..][i] == xss[i + 1];
      xss[0] + rest
  }

  /** `author` as the source runs it: one lookup for the names of the whole
      batch, then one cell per comment. */
  function AuthorCells(comments: seq<Comment>, users: seq<string>): (r: seq<string>)
    ensures |r| == |comments|
    ensures forall i :: 0 <= i < |comments| ==> r[i] == AuthorCell(users, comments[i].body)
  {
    BatchAuthorCells(users, seq(|comments|, i requires 0 <= i < |comments| => MentionedNames(comments[i].body)))
  }

  /** The cells of a batch of name lists, from one lookup of all their names. */
  function BatchAuthorCells(users: seq<string>, batched: seq<seq<string>>): (r: seq<string>)
    ensures |r| == |batched|
    ensures forall i :: 0 <= i < |batched| ==> r[i] == DisplayCell(users, batched[i])
  {
    var userMap := LookUpUsers(users, set x | x in Flatten(batched));
    BatchedLookUpAgrees(users, batched);
    seq(|batched|, i requires 0 <= i < |batched| => MapCell(userMap, batched[i]))
  }

  /** One lookup for a whole batch of name lists renders each list as
      looking up its names on their own does. */
  lemma BatchedLookUpAgrees(users: seq<string>, batched: seq<seq<string>>)
    ensures forall i :: 0 <= i < |batched| ==>
              MapCell(LookUpUsers(users, set x | x in Flatten(batched)), batched[i]) == DisplayCell(users, batched[i])
  {
    var wanted := set x | x in Flatten(batched);
    forall i | 0 <= i < |batched|
      ensures MapCell(LookUpUsers(users, wanted), batched[i]) == DisplayCell(users, batched[i])
    {
      assert forall k :: 0 <= k < |batched[i]| ==> batched[i][k] in batched[i];
      MapCellAgrees(users, wanted, batched[i]);
    }
  }

  // ---------------------------------------------------------------------------
  // date_comments, date_posts, date

  predicate IsDateColumn(c: Column) {
    c.DateComments? || c.DatePosts? || c.Date?
  }

  /** Identifiers longer than this are not short identifiers. */
  const MaxSlugLength := 7

  /** `path.split('/')[-1]` and `path.split('/')[-2]`; `nil` when the path has
      too few segments. */
  function PickSegment(c: Column, segs: seq<string>): (r: Option<string>)
    requires c.DateComments? || c.DatePosts?
    ensures c.DateComments? ==> (r.Some? <==> |segs| >= 1)
    ensures c.DatePosts? ==> (r.Some? <==> |segs| >= 2)
    ensures c.DateComments? && r.Some? ==> r.value == segs[|segs| - 1]
    ensures c.DatePosts? && r.Some? ==> r.value == segs[|segs| - 2]
  {
    if c.DateComments? then
      if |segs| >= 1 then Some(segs[|segs| - 1]) else None
    else
      if |segs| >= 2 then Some(segs[|segs| - 2]) else None
  }

  /** `segs.reverse.find { |slug| slug.size <= 7 }` */
  function LastShortSegment(segs: seq<string>): (r: Option<string>)
    ensures r.Some? ==> |r.value| <= MaxSlugLength
    ensures r.Some? ==> exists k :: 0 <= k < |segs| && segs[k] == r.value
                         && forall j :: k < j < |segs| ==> |segs[j]| > MaxSlugLength
    ensures r.None? <==> forall j :: 0 <= j < |segs| ==> |segs[j]| > MaxSlugLength
  {
    if segs == [] then None
    else if |segs[|segs| - 1]| <= MaxSlugLength then Some(segs[|segs| - 1])
    else
      var r := LastShortSegment(segs[..|segs| - 1]);
      assert forall j :: 0 <= j < |segs| - 1 ==> segs[..|segs| - 1][j] == segs[j];
      r
  }

  /** `reject { |slug| slug.size > 7 }` over identifiers known to be present:
      the short ones, in order, each as often as it was picked. */
  function KeepShort(picked: seq<Option<string>>): (r: seq<Option<string>>)
    requires forall i :: 0 <= i < |picked| ==> picked[i].Some?
    ensures forall o :: o in r ==> o.Some? && |o.value| <= MaxSlugLength
    ensures IsSubsequence(r, picked)
    ensures forall o :: multiset(r)[o] == if o.Some? && |o.value| <= MaxSlugLength then multiset(picked)[o] else 0
  {
    if picked == [] then []
    else
      var rest := KeepShort(picked[1..]);
      assert picked == [picked[0]] + picked[1..];
      if |picked[0].value| <= MaxSlugLength then
        var r := [picked[0]] + rest;
        assert r[1..] == rest;
        r
      else
        SubsequenceSkip(rest, picked);
        rest
  }

  /** The plain link URLs of a parsed body. */
  function LinkUrls(tree: Node): (r: seq<string>)
    ensures |r| == |ExtractLinks(tree)|
    ensures forall i :: 0 <= i < |r| ==> r[i] == ExtractLinks(tree)[i].url
  {
    var links := ExtractLinks(tree);
    seq(|links|, i requires 0 <= i < |links| => links[i].url)
  }

  /** The segment `date_comments` or `date_posts` picks from each link's path. */
  function Picked(c: Column, urls: seq<string>, path: string -> string): (r: seq<Option<string>>)
    requires c.DateComments? || c.DatePosts?
    ensures |r| == |urls|
    ensures forall i :: 0 <= i < |urls| ==> r[i] == PickSegment(c, RubySplit(path(urls[i]), '/'))
  {
    seq(|urls|, i requires 0 <= i < |urls| => PickSegment(c, RubySplit(path(urls[i]), '/')))
  }

  /** The identifiers a date column reads from one comment's links; `None`
      stands for `nil`. */
  function Slugs(c: Column, urls: seq<string>, path: string -> string): (r: Result<seq<Option<string>>, Error>)
    requires IsDateColumn(c)
    ensures r.Failure? <==> !c.Date? && exists i :: 0 <= i < |urls| && PickSegment(c, RubySplit(path(urls[i]), '/')).None?
    ensures c.Date? ==> r.Success? && |r.value| == |urls|
    ensures c.Date? ==> forall i :: 0 <= i < |urls| ==> r.value[i] == LastShortSegment(RubySplit(path(urls[i]), '/'))
    ensures r.Success? && !c.Date? ==> forall o :: o in r.value ==> o.Some? && |o.value| <= MaxSlugLength
  {
    if c.Date? then
      Success(seq(|urls|, i requires 0 <= i < |urls| => LastShortSegment(RubySplit(path(urls[i]), '/'))))
    else
      var picked := Picked(c, urls, path);
      if exists i :: 0 <= i < |picked| && picked[i].None? then Failure(MissingPathSegment)
      else Success(KeepShort(picked))
  }

  /** On success, `date_comments` and `date_posts` read, in link order, the
      segment picked from each link path that is at most 7 long, each as
      often as it was picked. */
  lemma SlugsPickShort(c: Column, urls: seq<string>, path: string -> string)
    requires c.DateComments? || c.DatePosts?
    ensures Slugs(c, urls, path).Success? ==> Slugs(c, urls, path).value == KeepShort(Picked(c, urls, path))
    ensures Slugs(c, urls, path).Success? ==> IsSubsequence(Slugs(c, urls, path).value, Picked(c, urls, path))
    ensures Slugs(c, urls, path).Success? ==>
              forall o :: multiset(Slugs(c, urls, path).value)[o] ==
                (if o.Some? && |o.value| <= MaxSlugLength then multiset(Picked(c, urls, path))[o] else 0)
  {
  }

  /** The creation dates a date column consults. `date` reads both tables and
      `to_h` lets a post shadow a comment with the same identifier. */
  function DatesFor(c: Column, store: Store): map<string, CalendarDate>
    requires IsDateColumn(c)
  {
    match c
    case DateComments => store.commentDates
    case DatePosts => store.postDates
    case _ => store.commentDates + store.postDates
  }

  function NotFound(c: Column): string
    requires IsDateColumn(c)
  {
    match c
    case DateComments => "COMMENT NOT FOUND"
    case DatePosts => "POST NOT FOUND"
    case _ => "POST/COMMENT NOT FOUND"
  }

  /** Left-pads with zeros to `width` characters. */
  function PadZero(s: string, width: nat): (r: string)
    decreases width - |s|
    ensures |r| >= width && |r| >= |s|
    ensures forall i :: 0 <= i < |r| ==> r[i] == '0' || r[i] in s
  {
    if |s| >= width then s else PadZero("0" + s, width)
  }

  /** Padding adds zeros in front until the width is reached, and nothing
      once it is. */
  lemma {:induction false} PadZeroShape(s: string, width: nat)
    ensures |PadZero(s, width)| == if |s| >= width then |s| else width
    ensures forall i :: 0 <= i < |PadZero(s, width)| ==>
      PadZero(s, width)[i] == if i < |PadZero(s, width)| - |s| then '0' else s[i - (|PadZero(s, width)| - |s|)]
    decreases width - |s|
  {
    if |s| < width {
      PadZeroShape("0" + s, width);
    }
  }

  /** Zero padding keeps a digit string's value. */
  lemma {:induction false} PadZeroValue(s: string, width: nat)
    requires AllDigits(s)
    ensures AllDigits(PadZero(s, width)) && ParseNat(PadZero(s, width)) == ParseNat(s)
    decreases width - |s|
  {
    if |s| < width {
      ParseNatLeadingZero(s);
      PadZeroValue("0" + s, width);
    }
  }

  /** A decimal field zero-padded to `width` digits. */
  function Field(n: nat, width: nat): (r: string)
    ensures |r| >= width && AllDigits(r)
    ensures ParseNat(r) == n
  {
    ParseNatToString(n);
    PadZeroValue(NatToString(n), width);
    PadZero(NatToString(n), width)
  }

  /** A field is exactly `width` digits when the number fits, and otherwise
      the number's own digits with no leading zero. */
  lemma FieldWidth(n: nat, width: nat)
    requires width >= 1
    ensures |Field(n, width)| == if n < Pow10(width) then width else |NatToString(n)|
    ensures |Field(n, width)| > width ==> Field(n, width)[0] != '0'
  {
    NatToStringLength(n, width);
    PadZeroShape(NatToString(n), width);
  }

  /** `Date#to_s`: ISO 8601, `yyyy-mm-dd`. */
  function DateText(d: CalendarDate): (r: string)
    ensures |r| >= 10
    ensures forall i :: 0 <= i < |r| ==> IsDigit(r[i]) || r[i] == '-'
  {
    Field(d.year, 4) + "-" + Field(d.month, 2) + "-" + Field(d.day, 2)
  }

  /** Read back, a rendered date is three dash-separated digit fields that
      spell its year, month and day: the year exactly four digits unless it
      needs more, the month and day exactly two unless they need more, and a
      field wider than its width never starts with a zero. */
  lemma DateTextReadBack(d: CalendarDate)
    ensures |SplitOn(DateText(d), '-')| == 3
    ensures forall k :: 0 <= k < 3 ==> AllDigits(SplitOn(DateText(d), '-')[k])
    ensures ParseNat(SplitOn(DateText(d), '-')[0]) == d.year
    ensures ParseNat(SplitOn(DateText(d), '-')[1]) == d.month
    ensures ParseNat(SplitOn(DateText(d), '-')[2]) == d.day
    ensures |SplitOn(DateText(d), '-')[0]| == if d.year < 10000 then 4 else |NatToString(d.year)|
    ensures |SplitOn(DateText(d), '-')[1]| == if d.month < 100 then 2 else |NatToString(d.month)|
    ensures |SplitOn(DateText(d), '-')[2]| == if d.day < 100 then 2 else |NatToString(d.day)|
    ensures forall k :: 0 <= k < 3 && |SplitOn(DateText(d), '-')[k]| > [4, 2, 2][k] ==> SplitOn(DateText(d), '-')[k][0] != '0'
  {
    var fields := [Field(d.year, 4), Field(d.month, 2), Field(d.day, 2)];
    forall k | 0 <= k < 3 ensures '-' !in fields[k] {
      assert forall i :: 0 <= i < |fields[k]| ==> IsDigit(fields[k][i]);
    }
    SplitOnJoin(fields, '-');
    assert Join(fields[1..], "-") == fields[1] + "-" + fields[2] by {
      assert fields[1..][1..] == [fields[2]];
    }
    assert Join(fields, "-") == DateText(d);
    FieldWidth(d.year, 4);
    FieldWidth(d.month, 2);
    FieldWidth(d.day, 2);
    assert Pow10(4) == 10000 && Pow10(2) == 100;
  }

  /** `map[link]&.to_date` rendered by `join`: the date of a stored
      identifier, and "" for `nil` or an identifier with no stored date. */
  function SlugText(dates: map<string, CalendarDate>, slug: Option<string>): (r: string)
    ensures forall i :: 0 <= i < |r| ==> IsDigit(r[i]) || r[i] == '-'
    ensures slug.Some? && slug.value in dates ==> r == DateText(dates[slug.value])
    ensures r == "" <==> slug.None? || slug.value !in dates
  {
    match slug
    case None => ""
    case Some(s) => if s in dates then DateText(dates[s]) else ""
  }

  function DateCell(c: Column, slugs: seq<Option<string>>, dates: map<string, CalendarDate>): string
    requires IsDateColumn(c)
  {
    if slugs == [] then NotFound(c)
    else Join(seq(|slugs|, i requires 0 <= i < |slugs| => SlugText(dates, slugs[i])), ", ")
  }

  /** A date cell is its column's "NOT FOUND" marker exactly when no
      identifier was read from the comment; otherwise it holds only digits,
      dashes and separators. */
  lemma DateCellNotFoundIff(c: Column, slugs: seq<Option<string>>, dates: map<string, CalendarDate>)
    requires IsDateColumn(c)
    ensures DateCell(c, slugs, dates) == NotFound(c) <==> slugs == []
  {
    if slugs != [] {
      var texts := seq(|slugs|, i requires 0 <= i < |slugs| => SlugText(dates, slugs[i]));
      var P := (ch: char) => IsDigit(ch) || ch == '-' || ch == ',' || ch == ' ';
      JoinChars(texts, ", ", P);
      assert !P(NotFound(c)[0]);
    }
  }

  /** Read back at its commas, a date cell with identifiers holds one field
      per identifier, in order: that identifier's date, or "" when it has
      none, each after the first led by the space of the ", " separator. */
  lemma DateCellFields(c: Column, slugs: seq<Option<string>>, dates: map<string, CalendarDate>)
    requires IsDateColumn(c)
    requires slugs != []
    ensures |SplitOn(DateCell(c, slugs, dates), ',')| == |slugs|
    ensures SplitOn(DateCell(c, slugs, dates), ',')[0] == SlugText(dates, slugs[0])
    ensures forall k :: 1 <= k < |slugs| ==> SplitOn(DateCell(c, slugs, dates), ',')[k] == " " + SlugText(dates, slugs[k])
  {
    var texts := seq(|slugs|, i requires 0 <= i < |slugs| => SlugText(dates, slugs[i]));
    assert ", " == [','] + " ";
    JoinLongSeparator(texts, ',', " ");
    var ys := PrefixRest(texts, " ");
    forall k | 0 <= k < |ys| ensures ',' !in ys[k] {
      assert forall i :: 0 <= i < |texts[k]| ==> IsDigit(texts[k][i]) || texts[k][i] == '-';
      if k > 0 {
        assert ys[k] == " " + texts[k];
      }
    }
    SplitOnJoin(ys, ',');
  }

  // ---------------------------------------------------------------------------
  // One cell per comment

  /** The cell a column shows for one comment, computed on its own. */
  function Cell(c: Column, comment: Comment, store: Store): (r: Result<string, Error>)
    ensures r.Failure? ==> (c.DateComments? || c.DatePosts?) && r.error == MissingPathSegment
    ensures c.NominationAuthor? ==> r.Success? && StartsWith(r.value, "u/") && r.value[2..] == comment.author
    ensures c.Reason? || c.Why? ==> r == Success("TODO")
  {
    match c
    case NominationAuthor => Success(NominationAuthorCell(comment))
    case ThreadLink => Success(ThreadLinkCell(comment.tree))
    case Examples => Success(ThreadLinkCell(comment.tree))
    case Author => Success(AuthorCell(store.users, comment.body))
    case Reason => Success(Placeholder)
    case Why => Success(Placeholder)
    case _ =>
      match Slugs(c, LinkUrls(comment.tree), store.path)
      case Failure(e) => Failure(e)
      case Success(slugs) => Success(DateCell(c, slugs, DatesFor(c, store)))
  }

  /** `date` never fails, and shows "POST/COMMENT NOT FOUND" exactly for the
      comments without links. */
  lemma GenericDateNotFound(comment: Comment, store: Store)
    ensures Cell(Date, comment, store).Success?
    ensures Cell(Date, comment, store).value == "POST/COMMENT NOT FOUND" <==> ExtractLinks(comment.tree) == []
  {
    var slugs := Slugs(Date, LinkUrls(comment.tree), store.path).value;
    DateCellNotFoundIff(Date, slugs, DatesFor(Date, store));
  }

  // ---------------------------------------------------------------------------
  // Batches

  /** The identifiers read from each comment's links, or the first failure. */
  function BatchSlugs(c: Column, urlss: seq<seq<string>>, path: string -> string): (r: Result<seq<seq<Option<string>>>, Error>)
    requires IsDateColumn(c)
    ensures r.Failure? <==> exists i :: 0 <= i < |urlss| && Slugs(c, urlss[i], path).Failure?
    ensures r.Success? ==> |r.value| == |urlss|
    ensures r.Success? ==> forall i :: 0 <= i < |urlss| ==> Slugs(c, urlss[i], path) == Success(r.value[i])
  {
    var rs := seq(|urlss|, i requires 0 <= i < |urlss| => Slugs(c, urlss[i], path));
    var r := AllOrFirstFailure(rs);
    assert r.Failure? ==> exists i :: 0 <= i < |urlss| && Slugs(c, urlss[i], path).Failure? by {
      if r.Failure? {
        var i :| 0 <= i < |rs| && rs[i].Failure?;
        assert rs[i] == Slugs(c, urlss[i], path);
      }
    }
    assert (exists i :: 0 <= i < |urlss| && Slugs(c, urlss[i], path).Failure?) ==> r.Failure? by {
      if exists i :: 0 <= i < |urlss| && Slugs(c, urlss[i], path).Failure? {
        var i :| 0 <= i < |urlss| && Slugs(c, urlss[i], path).Failure?;
        assert rs[i].Failure?;
      }
    }
    r
  }

  /** The values of a list of results, or the first failure among them. */
  function AllOrFirstFailure<T, E>(rs: seq<Result<T, E>>): (r: Result<seq<T>, E>)
    ensures r.Failure? <==> exists i :: 0 <= i < |rs| && rs[i].Failure?
    ensures r.Success? ==> |r.value| == |rs| && forall i :: 0 <= i < |rs| ==> rs[i] == Success(r.value[i])
  {
    if rs == [] then Success([])
    else
      match rs[0]
      case Failure(e) => Failure(e)
      case Success(first) =>
        match AllOrFirstFailure(rs[1..])
        case Failure(e) =>
          assert exists i :: 1 <= i < |rs| && rs[i].Failure? by {
            var i :| 0 <= i < |rs[1..]| && rs[1..][i].Failure?;
            assert rs[i + 1] == rs[1..][i];
          }
          Failure(e)
        case Success(rest) =>
          assert forall i :: 1 <= i < |rs| ==> rs[i] == rs[1..][i - 1];
          Success([first] + rest)
  }

  function SomeValues(xss: seq<seq<Option<string>>>): (r: set<string>)
    ensures forall i, o :: 0 <= i < |xss| && o in xss[i] && o.Some? ==> o.value in r
    ensures forall v :: v in r ==> exists i :: 0 <= i < |xss| && Some(v) in xss[i]
  {
    if xss == [] then {}
    else
      var rest := SomeValues(xss[1..]);
      assert forall i :: 0 <= i < |xss| - 1 ==> xss[1..][i] == xss[i + 1];
      (set o | o in xss[0] && o.Some? :: o.value) + rest
  }

  function Restrict(m: map<string, CalendarDate>, keys: set<string>): (r: map<string, CalendarDate>)
    ensures forall k :: k in keys && k in m ==> k in r && r[k] == m[k]
    ensures forall k :: k in r ==> k in keys && k in m
  {
    map k | k in m && k in keys :: m[k]
  }

  /** `where(id36: ...).pluck(:id36, :created_time).to_h` for each table the
      column reads; `date` concatenates both results before `to_h`. */
  function BatchDates(c: Column, store: Store, wanted: set<string>): map<string, CalendarDate>
    requires IsDateColumn(c)
  {
    match c
    case DateComments => Restrict(store.commentDates, wanted)
    case DatePosts => Restrict(store.postDates, wanted)
    case _ => Restrict(store.commentDates, wanted) + Restrict(store.postDates, wanted)
  }

  lemma BatchDatesAgree(c: Column, store: Store, wanted: set<string>, slug: Option<string>)
    requires IsDateColumn(c)
    requires slug.Some? ==> slug.value in wanted
    ensures SlugText(BatchDates(c, store, wanted), slug) == SlugText(DatesFor(c, store), slug)
  {
    if slug.Some? {
      var s := slug.value;
      var full := DatesFor(c, store);
      var batch := BatchDates(c, store, wanted);
      assert s in batch <==> s in full;
      if s in full {
        assert batch[s] == full[s];
      }
    }
  }

  /** A date column as the source runs it: all identifiers first, one query
      per table, then one cell per comment. */
  function DateCells(c: Column, comments: seq<Comment>, store: Store): (r: Result<seq<string>, Error>)
    requires IsDateColumn(c)
    ensures r.Failure? <==> exists i :: 0 <= i < |comments| && Cell(c, comments[i], store).Failure?
    ensures r.Success? ==> |r.value| == |comments|
    ensures r.Success? ==> forall i :: 0 <= i < |comments| ==> Cell(c, comments[i], store) == Success(r.value[i])
  {
    match BatchSlugs(c, seq(|comments|, i requires 0 <= i < |comments| => LinkUrls(comments[i].tree)), store.path)
    case Failure(e) => Failure(e)
    case Success(batched) =>
      var dates := BatchDates(c, store, SomeValues(batched));
      var cells := seq(|batched|, i requires 0 <= i < |batched| => DateCell(c, batched[i], dates));
      forall i | 0 <= i < |comments| ensures Cell(c, comments[i], store) == Success(cells[i]) {
        var slugs := batched[i];
        forall k | 0 <= k < |slugs|
          ensures SlugText(dates, slugs[k]) == SlugText(DatesFor(c, store), slugs[k])
        {
          assert slugs[k] in batched[i];
          BatchDatesAgree(c, store, SomeValues(batched), slugs[k]);
        }
        SameTextsSameCell(c, slugs, dates, DatesFor(c, store));
      }
      Success(cells)
  }

  /** Date tables that render every identifier alike give the same cell. */
  lemma SameTextsSameCell(c: Column, slugs: seq<Option<string>>, a: map<string, CalendarDate>, b: map<string, CalendarDate>)
    requires IsDateColumn(c)
    requires forall k :: 0 <= k < |slugs| ==> SlugText(a, slugs[k]) == SlugText(b, slugs[k])
    ensures DateCell(c, slugs, a) == DateCell(c, slugs, b)
  {
    assert seq(|slugs|, k requires 0 <= k < |slugs| => SlugText(a, slugs[k]))
        == seq(|slugs|, k requires 0 <= k < |slugs| => SlugText(b, slugs[k]));
  }

  /** The extractor called with a batch: one cell per comment, in order, each
      the cell of that comment alone; the run aborts if any comment's would. */
  function Cells(c: Column, comments: seq<Comment>, store: Store): (r: Result<seq<string>, Error>)
    ensures r.Failure? <==> exists i :: 0 <= i < |comments| && Cell(c, comments[i], store).Failure?
    ensures r.Success? ==> |r.value| == |comments|
    ensures r.Success? ==> forall i :: 0 <= i < |comments| ==> Cell(c, comments[i], store) == Success(r.value[i])
  {
    if IsDateColumn(c) then DateCells(c, comments, store) else Success(PlainCells(c, comments, store))
  }

  /** The columns that never fail, one cell per comment. */
  function PlainCells(c: Column, comments: seq<Comment>, store: Store): (r: seq<string>)
    requires !IsDateColumn(c)
    ensures |r| == |comments|
    ensures forall i :: 0 <= i < |comments| ==> Cell(c, comments[i], store) == Success(r[i])
  {
    match c
    case NominationAuthor =>
      seq(|comments|, i requires 0 <= i < |comments| => NominationAuthorCell(comments[i]))
    case ThreadLink =>
      seq(|comments|, i requires 0 <= i < |comments| => ThreadLinkCell(comments[i].tree))
    case Examples =>
      seq(|comments|, i requires 0 <= i < |comments| => ThreadLinkCell(comments[i].tree))
    case Author => AuthorCells(comments, store.users)
    case Reason => seq(|comments|, _ => Placeholder)
    case Why => seq(|comments|, _ => Placeholder)
  }
}

=== FILE: markdown.dfy ===
/**
 Link extraction over a parsed CommonMark document (`MarkdownUtils`).

 The parser itself is not modelled: a document is given as its node tree.
 `extract_links` walks the tree with a first-in first-out queue: link nodes
 whose URL starts with "http" are recorded and never entered, block quotes,
 code spans and code blocks are skipped with their contents, and every other
 node has its children appended to the queue in source order.
 */
module Markdown {
  import opened Strings

  /** The node types the walk tells apart. Every other CommonMark node type
      (document, paragraph, emphasis, list, heading, ...) is `Other`. */
  datatype Kind =
    | Link(url: string, title: string)
    | Text(content: string)
    | BlockQuote
    | Code
    | CodeBlock
    | Other

  datatype Node = Node(kind: Kind, children: seq<Node>)

  /** One extracted link: `{text:, url:, title:}`. */
  datatype Hyperlink = Hyperlink(text: string, url: string, title: string)

  /** Block quotes, code spans and code blocks: skipped with their contents. */
  predicate IsOpaque(k: Kind) {
    k.BlockQuote? || k.Code? || k.CodeBlock?
  }

  /** The walk enqueues the children of exactly these nodes. */
  predicate Descends(k: Kind) {
    !k.Link? && !IsOpaque(k)
  }

  // ---------------------------------------------------------------------------
  // node_text

  /** Anchor text: the string content of a text node, otherwise the
      left-to-right concatenation of the children's texts. */
  function NodeText(n: Node): string
    decreases n
  {
    match n.kind
    case Text(content) => content
    case _ => ChildrenText(n.children)
  }

  function ChildrenText(ns: seq<Node>): string
    decreases ns
  {
    if ns == [] then "" else NodeText(ns[0]) + ChildrenText(ns[1..])
  }

  /** Concatenation is left to right: the text of a sequence of siblings is
      the text of its first part followed by the text of the rest. */
  lemma {:induction false} ChildrenTextAppend(a: seq<Node>, b: seq<Node>)
    ensures ChildrenText(a + b) == ChildrenText(a) + ChildrenText(b)
  {
    if a == [] {
      assert a + b == b;
    } else {
      assert (a + b)[0] == a[0];
      assert (a + b)[1..] == a[1..] + b;
      ChildrenTextAppend(a[1..], b);
    }
  }

  /** Number of text nodes that contribute to `NodeText`. */
  function TextLeaves(n: Node): nat
    decreases n
  {
    if n.kind.Text? then 1 else TextLeavesAll(n.children)
  }

  function TextLeavesAll(ns: seq<Node>): nat
    decreases ns
  {
    if ns == [] then 0 else TextLeaves(ns[0]) + TextLeavesAll(ns[1..])
  }

  /** A subtree without text leaves has empty text. */
  lemma {:induction false} NoTextLeavesNoText(n: Node)
    requires TextLeaves(n) == 0
    ensures NodeText(n) == ""
    decreases n
  {
    NoTextLeavesNoTextAll(n.children);
  }

  lemma {:induction false} NoTextLeavesNoTextAll(ns: seq<Node>)
    requires TextLeavesAll(ns) == 0
    ensures ChildrenText(ns) == ""
    decreases ns
  {
    if ns != [] {
      NoTextLeavesNoText(ns[0]);
      NoTextLeavesNoTextAll(ns[1..]);
    }
  }

  // ---------------------------------------------------------------------------
  // Sizes, for termination of the queue walk

  function Size(n: Node): nat
    decreases n
  {
    1 + ForestSize(n.children)
  }

  function ForestSize(q: seq<Node>): nat
    decreases q
  {
    if q == [] then 0 else Size(q[0]) + ForestSize(q[1..])
  }

  lemma {:induction false} ForestSizeAppend(a: seq<Node>, b: seq<Node>)
    ensures ForestSize(a + b) == ForestSize(a) + ForestSize(b)
  {
    if a == [] {
      assert a + b == b;
    } else {
      assert (a + b)[0] == a[0];
      assert (a + b)[1..] == a[1..] + b;
      ForestSizeAppend(a[1..], b);
    }
  }

  /** Dequeuing a node and enqueueing its children shrinks the queue's size. */
  lemma ForestSizeStep(q: seq<Node>)
    requires q != []
    ensures ForestSize(q[1..]) < ForestSize(q)
    ensures ForestSize(q[1..] + q[0].children) < ForestSize(q)
  {
    ForestSizeAppend(q[1..], q[0].children);
  }

  // ---------------------------------------------------------------------------
  // extract_links

  /** The record a node contributes when dequeued: one link for an http link
      node, nothing otherwise. */
  function Own(n: Node): seq<Hyperlink> {
    match n.kind
    case Link(url, title) =>
      if StartsWith(url, "http") then [Hyperlink(NodeText(n), url, title)] else []
    case _ => []
  }

  /** What the queue loop appends to its result when it starts from `queue`. */
  function Walk(queue: seq<Node>): seq<Hyperlink>
    decreases ForestSize(queue)
  {
    if queue == [] then []
    else
      var node := queue[0];
      ForestSizeStep(queue);
      if Descends(node.kind) then
        Walk(queue[1..] + node.children)
      else
        Own(node) + Walk(queue[1..])
  }

  /** `extract_links` applied to a parsed document. */
  function ExtractLinks(root: Node): seq<Hyperlink> {
    Walk([root])
  }

  /** The queue loop of `extract_links`. */
  method ExtractLinksByQueue(root: Node) returns (links: seq<Hyperlink>)
    ensures links == ExtractLinks(root)
    ensures forall l :: l in links ==> StartsWith(l.url, "http")
    ensures |links| <= LinkCount(root)
  {
    links := [];
    var queue := [root];
    while queue != []
      invariant links + Walk(queue) == Walk([root])
      decreases ForestSize(queue)
    {
      var node := queue[0];
      ForestSizeStep(queue);
      queue := queue[1..];
      match node.kind {
        case Link(url, title) =>
          if StartsWith(url, "http") {
            links := links + [Hyperlink(NodeText(node), url, title)];
          }
        case BlockQuote =>
        case Code =>
        case CodeBlock =>
        case _ =>
          queue := queue + node.children;
      }
    }
    ExtractedAreHttp(root);
    ExtractedAtMostLinkNodes(root);
  }

  // ---------------------------------------------------------------------------
  // Breadth-first order

  /** The records of the nodes of one queue level, in queue order. */
  function Hits(q: seq<Node>): seq<Hyperlink> {
    if q == [] then [] else Own(q[0]) + Hits(q[1..])
  }

  /** The next queue level: the children of the nodes the walk descends into,
      each parent's children in source order. */
  function Expand(q: seq<Node>): seq<Node> {
    if q == [] then []
    else (if Descends(q[0].kind) then q[0].children else []) + Expand(q[1..])
  }

  /** Draining `q` ahead of `r` yields the records of `q` and then continues
      with `r` followed by the children `q` contributed. */
  lemma {:induction false} WalkPrefix(q: seq<Node>, r: seq<Node>)
    ensures Walk(q + r) == Hits(q) + Walk(r + Expand(q))
    decreases |q|
  {
    if q == [] {
      assert q + r == r;
      assert r + Expand(q) == r;
    } else {
      var n := q[0];
      assert (q + r)[0] == n;
      assert (q + r)[1..] == q[1..] + r;
      if Descends(n.kind) {
        assert Walk(q + r) == Walk(q[1..] + r + n.children);
        assert q[1..] + r + n.children == q[1..] + (r + n.children);
        WalkPrefix(q[1..], r + n.children);
        assert Own(n) == [];
        assert Expand(q) == n.children + Expand(q[1..]);
        assert r + n.children + Expand(q[1..]) == r + Expand(q);
      } else {
        assert Walk(q + r) == Own(n) + Walk(q[1..] + r);
        WalkPrefix(q[1..], r);
        assert Expand(q) == Expand(q[1..]);
      }
    }
  }

  /** The walk is breadth-first: the links of the current level come out in
      queue order, before anything found on the next level. */
  lemma BreadthFirst(q: seq<Node>)
    ensures Walk(q) == Hits(q) + Walk(Expand(q))
  {
    WalkPrefix(q, []);
    assert q + [] == q;
    assert [] + Expand(q) == Expand(q);
  }

  // ---------------------------------------------------------------------------
  // Which links are extracted: the document-order reference

  /** The links a depth-first reading in document order would extract: http
      links not inside a block quote, code span, code block or another link. */
  function Exposed(n: Node): (r: seq<Hyperlink>)
    decreases n
    ensures forall l :: l in r ==> StartsWith(l.url, "http")
    ensures |r| <= LinkCount(n)
  {
    if Descends(n.kind) then ExposedAll(n.children) else Own(n)
  }

  function ExposedAll(ns: seq<Node>): (r: seq<Hyperlink>)
    decreases ns
    ensures forall l :: l in r ==> StartsWith(l.url, "http")
    ensures |r| <= LinkCountAll(ns)
  {
    if ns == [] then [] else Exposed(ns[0]) + ExposedAll(ns[1..])
  }

  /** Number of link nodes anywhere in the tree, whatever their URL. */
  function LinkCount(n: Node): nat
    decreases n
  {
    (if n.kind.Link? then 1 else 0) + LinkCountAll(n.children)
  }

  function LinkCountAll(ns: seq<Node>): nat
    decreases ns
  {
    if ns == [] then 0 else LinkCount(ns[0]) + LinkCountAll(ns[1..])
  }

  lemma {:induction false} ExposedAllAppend(a: seq<Node>, b: seq<Node>)
    ensures ExposedAll(a + b) == ExposedAll(a) + ExposedAll(b)
  {
    if a == [] {
      assert a + b == b;
    } else {
      assert (a + b)[0] == a[0];
      assert (a + b)[1..] == a[1..] + b;
      ExposedAllAppend(a[1..], b);
      assert ExposedAll(a + b) == Exposed(a[0]) + ExposedAll(a[1..] + b);
    }
  }

  /** The queue walk extracts exactly the document-order links, each as
      often, only in breadth-first order. */
  lemma {:induction false} WalkPermutesExposed(q: seq<Node>)
    ensures multiset(Walk(q)) == multiset(ExposedAll(q))
    decreases ForestSize(q)
  {
    if q != [] {
      var n := q[0];
      ForestSizeStep(q);
      if Descends(n.kind) {
        WalkPermutesExposed(q[1..] + n.children);
        ExposedAllAppend(q[1..], n.children);
      } else {
        WalkPermutesExposed(q[1..]);
      }
    }
  }

  lemma ExtractedPermutesExposed(root: Node)
    ensures multiset(ExtractLinks(root)) == multiset(Exposed(root))
  {
    WalkPermutesExposed([root]);
    assert ExposedAll([root]) == Exposed(root) + ExposedAll([]);
  }

  /** Every extracted link's URL starts with "http". */
  lemma ExtractedAreHttp(root: Node)
    ensures forall l :: l in ExtractLinks(root) ==> StartsWith(l.url, "http")
  {
    ExtractedPermutesExposed(root);
    forall l | l in ExtractLinks(root) ensures StartsWith(l.url, "http") {
      assert l in multiset(ExtractLinks(root));
      assert l in multiset(Exposed(root));
    }
  }

  /** At most one record per link node of the tree. */
  lemma ExtractedAtMostLinkNodes(root: Node)
    ensures |ExtractLinks(root)| <= LinkCount(root)
  {
    ExtractedPermutesExposed(root);
    assert |multiset(ExtractLinks(root))| == |multiset(Exposed(root))|;
  }

  // ---------------------------------------------------------------------------
  // What the walk cannot see

  /** Two trees the walk cannot tell apart: same node types along every path
      it enters, the contents of block quotes and code free to differ, and a
      link node's children free to differ as long as its text is the same. */
  predicate Equivalent(a: Node, b: Node)
    decreases a
  {
    && a.kind == b.kind
    && (a.kind.Link? ==> NodeText(a) == NodeText(b))
    && (Descends(a.kind) ==>
          && |a.children| == |b.children|
          && forall i :: 0 <= i < |a.children| ==> Equivalent(a.children[i], b.children[i]))
  }

  predicate EquivalentAll(p: seq<Node>, q: seq<Node>) {
    |p| == |q| && forall i :: 0 <= i < |p| ==> Equivalent(p[i], q[i])
  }

  lemma {:induction false} EquivalentWalk(p: seq<Node>, q: seq<Node>)
    requires EquivalentAll(p, q)
    ensures Walk(p) == Walk(q)
    decreases ForestSize(p)
  {
    if p != [] {
      var a, b := p[0], q[0];
      assert Equivalent(a, b);
      assert EquivalentAll(p[1..], q[1..]);
      ForestSizeStep(p);
      if Descends(a.kind) {
        assert EquivalentAll(p[1..] + a.children, q[1..] + b.children) by {
          forall i | 0 <= i < |p[1..] + a.children|
            ensures Equivalent((p[1..] + a.children)[i], (q[1..] + b.children)[i])
          {
            if i < |p| - 1 {
              assert (p[1..] + a.children)[i] == p[i + 1];
              assert (q[1..] + b.children)[i] == q[i + 1];
            } else {
              assert (p[1..] + a.children)[i] == a.children[i - |p| + 1];
              assert (q[1..] + b.children)[i] == b.children[i - |p| + 1];
            }
          }
        }
        EquivalentWalk(p[1..] + a.children, q[1..] + b.children);
      } else {
        assert Own(a) == Own(b);
        EquivalentWalk(p[1..], q[1..]);
      }
    }
  }

  lemma {:induction false} EquivalentRefl(n: Node)
    ensures Equivalent(n, n)
    decreases n
  {
    forall i | 0 <= i < |n.children| ensures Equivalent(n.children[i], n.children[i]) {
      EquivalentRefl(n.children[i]);
    }
  }

  /** A path of child indices from a node down to one of its descendants. */
  predicate ValidPath(n: Node, path: seq<nat>)
    decreases |path|
  {
    path == [] || (path[0] < |n.children| && ValidPath(n.children[path[0]], path[1..]))
  }

  /** The node reached by following `path`. */
  function At(n: Node, path: seq<nat>): Node
    requires ValidPath(n, path)
    decreases |path|
  {
    if path == [] then n else At(n.children[path[0]], path[1..])
  }

  /** No node strictly above the end of `path` is a link node. */
  predicate OutsideLinks(n: Node, path: seq<nat>)
    requires ValidPath(n, path)
    decreases |path|
  {
    path == [] || (!n.kind.Link? && OutsideLinks(n.children[path[0]], path[1..]))
  }

  /** `n` with the subtree at `path` replaced by `sub`. */
  function ReplaceAt(n: Node, path: seq<nat>, sub: Node): (r: Node)
    requires ValidPath(n, path)
    decreases |path|
  {
    if path == [] then sub
    else
      var i := path[0];
      Node(n.kind, n.children[i := ReplaceAt(n.children[i], path[1..], sub)])
  }

  lemma {:induction false} ReplaceEquivalent(n: Node, path: seq<nat>, sub: Node)
    requires ValidPath(n, path) && OutsideLinks(n, path)
    requires Equivalent(At(n, path), sub)
    ensures Equivalent(n, ReplaceAt(n, path, sub))
    decreases |path|
  {
    if path != [] {
      var i := path[0];
      var r := ReplaceAt(n, path, sub);
      ReplaceEquivalent(n.children[i], path[1..], sub);
      forall j | 0 <= j < |n.children| ensures Equivalent(n.children[j], r.children[j]) {
        if j != i {
          EquivalentRefl(n.children[j]);
        }
      }
    }
  }

  /** Nothing inside a block quote, code span or code block is ever extracted:
      replacing its contents with anything leaves the result unchanged. */
  lemma QuotedContentIgnored(root: Node, path: seq<nat>, contents: seq<Node>)
    requires ValidPath(root, path) && OutsideLinks(root, path)
    requires IsOpaque(At(root, path).kind)
    ensures ExtractLinks(ReplaceAt(root, path, Node(At(root, path).kind, contents))) == ExtractLinks(root)
  {
    var sub := Node(At(root, path).kind, contents);
    ReplaceEquivalent(root, path, sub);
    EquivalentWalk([ReplaceAt(root, path, sub)], [root]) by {
      EquivalentSym(root, ReplaceAt(root, path, sub));
    }
  }

  /** Links nested inside a link node are never extracted: replacing the
      children of a link node by children with the same text, for instance a
      single text node, leaves the result unchanged. */
  lemma NestedLinksIgnored(root: Node, path: seq<nat>, contents: seq<Node>)
    requires ValidPath(root, path) && OutsideLinks(root, path)
    requires At(root, path).kind.Link?
    requires ChildrenText(contents) == NodeText(At(root, path))
    ensures ExtractLinks(ReplaceAt(root, path, Node(At(root, path).kind, contents))) == ExtractLinks(root)
  {
    var sub := Node(At(root, path).kind, contents);
    ReplaceEquivalent(root, path, sub);
    EquivalentWalk([ReplaceAt(root, path, sub)], [root]) by {
      EquivalentSym(root, ReplaceAt(root, path, sub));
    }
  }

  lemma {:induction false} EquivalentSym(a: Node, b: Node)
    requires Equivalent(a, b)
    ensures Equivalent(b, a)
    decreases a
  {
    if Descends(a.kind) {
      forall i | 0 <= i < |b.children| ensures Equivalent(b.children[i], a.children[i]) {
        EquivalentSym(a.children[i], b.children[i]);
      }
    }
  }

  // ---------------------------------------------------------------------------
  // Where each record comes from

  /** `l` is the record of a link node of `n`: its URL and title are the
      node's, its text is the node's text. */
  ghost predicate RecordOf(n: Node, l: Hyperlink) {
    exists path :: ValidPath(n, path) && At(n, path).kind == Link(l.url, l.title) && NodeText(At(n, path)) == l.text
  }

  lemma StepDown(n: Node, k: nat, path: seq<nat>)
    requires k < |n.children| && ValidPath(n.children[k], path)
    ensures ValidPath(n, [k] + path) && At(n, [k] + path) == At(n.children[k], path)
  {
    assert ([k] + path)[0] == k && ([k] + path)[1..] == path;
  }

  lemma {:induction false} ExposedRecords(n: Node)
    ensures forall l :: l in Exposed(n) ==> RecordOf(n, l)
    decreases n, 1
  {
    if Descends(n.kind) {
      forall l | l in ExposedAll(n.children) ensures RecordOf(n, l) {
        ExposedAllRecords(n.children);
        var k :| 0 <= k < |n.children| && RecordOf(n.children[k], l);
        var path :| ValidPath(n.children[k], path) && At(n.children[k], path).kind == Link(l.url, l.title)
                    && NodeText(At(n.children[k], path)) == l.text;
        StepDown(n, k, path);
      }
    } else {
      forall l | l in Own(n) ensures RecordOf(n, l) {
        assert ValidPath(n, []) && At(n, []) == n;
      }
    }
  }

  lemma {:induction false} ExposedAllRecords(ns: seq<Node>)
    ensures forall l :: l in ExposedAll(ns) ==> exists k :: 0 <= k < |ns| && RecordOf(ns[k], l)
    decreases ns, 0
  {
    if ns != [] {
      ExposedRecords(ns[0]);
      ExposedAllRecords(ns[1..]);
      forall l | l in ExposedAll(ns) ensures exists k :: 0 <= k < |ns| && RecordOf(ns[k], l) {
        if l !in Exposed(ns[0]) {
          assert ExposedAll(ns) == Exposed(ns[0]) + ExposedAll(ns[1..]);
          assert l in ExposedAll(ns[1..]);
          var k :| 0 <= k < |ns[1..]| && RecordOf(ns[1..][k], l);
          assert ns[1..][k] == ns[k + 1];
        }
      }
    }
  }

  /** Every extracted record is `{text: node_text(node), url: node.url,
      title: node.title}` for some link node of the document. */
  lemma ExtractedRecords(root: Node)
    ensures forall l :: l in ExtractLinks(root) ==> RecordOf(root, l)
  {
    ExtractedPermutesExposed(root);
    ExposedRecords(root);
    forall l | l in ExtractLinks(root) ensures RecordOf(root, l) {
      assert l in multiset(ExtractLinks(root));
      assert l in multiset(Exposed(root));
    }
  }
}

=== FILE: patterns.dfy ===
/**
 The three regular expressions of the report generator, written out by hand
 with Ruby's matching rules (leftmost match, greedy `+`, ASCII `\w`):

 - `url.sub(/\w+\.reddit/, 'www.reddit')`   canonical host for thread links;
 - `body.scan(/\bu\/([\w\d\-_]+)/i)`        username mentions;
 - `url.match?(/http.?:\/\/(\w+\.)?redd/)`  links to the forum's own domain.
 */
module Patterns {
  import opened Results
  import opened Strings

  /** The end of the maximal run of `\w` characters starting at `i`. */
  function WordRunEnd(s: string, i: nat): (e: nat)
    requires i <= |s|
    decreases |s| - i
    ensures i <= e <= |s|
    ensures forall k :: i <= k < e ==> IsWordChar(s[k])
    ensures e == |s| || !IsWordChar(s[e])
  {
    if i < |s| && IsWordChar(s[i]) then WordRunEnd(s, i + 1) else i
  }

  /** Positions inside one run share its end. */
  lemma {:induction false} WordRunEndInside(s: string, i: nat, j: nat)
    requires i <= |s|
    requires i <= j <= WordRunEnd(s, i)
    ensures WordRunEnd(s, j) == WordRunEnd(s, i)
    decreases j - i
  {
    if i < j {
      WordRunEndInside(s, i + 1, j);
    }
  }

  /** The run end only depends on the characters up to and including it. */
  lemma {:induction false} WordRunEndPrefix(s: string, t: string, i: nat)
    requires i <= |s| && i <= |t|
    requires WordRunEnd(s, i) < |s| && WordRunEnd(s, i) < |t|
    requires s[..WordRunEnd(s, i) + 1] == t[..WordRunEnd(s, i) + 1]
    ensures WordRunEnd(t, i) == WordRunEnd(s, i)
    decreases |s| - i
  {
    var e := WordRunEnd(s, i);
    assert s[e] == s[..e + 1][e] == t[..e + 1][e] == t[e];
    if i < e {
      assert s[i] == s[..e + 1][i] == t[..e + 1][i] == t[i];
      WordRunEndPrefix(s, t, i + 1);
    }
  }

  // ---------------------------------------------------------------------------
  // url.sub(/\w+\.reddit/, 'www.reddit')

  /** `/\w+\.reddit/` matches at `i`: greedy `\w+` must stop at the end of the
      run, where the literal `.reddit` has to follow. */
  predicate HostMatchAt(s: string, i: nat) {
    i < |s| && IsWordChar(s[i]) && StartsWith(s[WordRunEnd(s, i)..], ".reddit")
  }

  /** The leftmost match at or after `from`. */
  function FirstHostMatch(s: string, from: nat): (r: Option<nat>)
    decreases |s| - from
    ensures r.Some? ==> from <= r.value && HostMatchAt(s, r.value)
    ensures r.Some? ==> forall j :: from <= j < r.value ==> !HostMatchAt(s, j)
    ensures r.None? ==> forall j :: from <= j ==> !HostMatchAt(s, j)
  {
    if from >= |s| then None
    else if HostMatchAt(s, from) then Some(from)
    else FirstHostMatch(s, from + 1)
  }

  /** `url.sub(/\w+\.reddit/, 'www.reddit')`: the first host ending in
      `.reddit` becomes `www.reddit`; other URLs are unchanged. */
  function RewriteRedditHost(url: string): (r: string)
    ensures FirstHostMatch(url, 0).None? ==> r == url
    ensures FirstHostMatch(url, 0).Some? ==>
              var i := FirstHostMatch(url, 0).value;
              && StartsWith(r, url[..i] + "www.reddit")
              && r[i + 10..] == url[WordRunEnd(url, i) + 7..]
  {
    match FirstHostMatch(url, 0)
    case None => url
    case Some(i) => url[..i] + "www.reddit" + url[WordRunEnd(url, i) + 7..]
  }

  /** The leftmost match starts a run: the character before it is not `\w`. */
  lemma LeftmostStartsRun(s: string, i: nat)
    requires FirstHostMatch(s, 0) == Some(i)
    ensures i == 0 || !IsWordChar(s[i - 1])
  {
    if i > 0 {
      assert !HostMatchAt(s, i - 1);
    }
  }

  /** Rewriting the host twice is the same as rewriting it once. */
  lemma RewriteIdempotent(url: string)
    ensures RewriteRedditHost(RewriteRedditHost(url)) == RewriteRedditHost(url)
  {
    match FirstHostMatch(url, 0)
    case None =>
    case Some(i) =>
      var r := RewriteRedditHost(url);
      assert r[..i] == url[..i] && r[i..i + 10] == "www.reddit";
      LeftmostStartsRun(url, i);
      RunOfWww(r, i);
      forall j | 0 <= j < i ensures !HostMatchAt(r, j) {
        NoEarlierMatch(url, r, i, j);
      }
      FirstHostMatchIs(r, i);
      assert r[..i] + "www.reddit" + r[i + 10..] == r;
  }

  /** A match with no match before it is the leftmost one. */
  lemma FirstHostMatchIs(s: string, i: nat)
    requires HostMatchAt(s, i)
    requires forall j :: 0 <= j < i ==> !HostMatchAt(s, j)
    ensures FirstHostMatch(s, 0) == Some(i)
  {
  }

  lemma RunOfWww(r: string, i: nat)
    requires i + 10 <= |r| && r[i..i + 10] == "www.reddit"
    ensures WordRunEnd(r, i) == i + 3
    ensures HostMatchAt(r, i)
  {
    assert r[i] == 'w' && r[i + 1] == 'w' && r[i + 2] == 'w' && r[i + 3] == '.';
    assert WordRunEnd(r, i + 3) == i + 3;
    assert r[i + 3..][..7] == r[i + 3..i + 10] == ".reddit";
  }

  /** A position before the leftmost match of a string does not match in a
      string that agrees with it up to the match, has a `w` where the match
      began, and a non-word character just before it. */
  lemma NoEarlierMatch(url: string, r: string, i: nat, j: nat)
    requires j < i < |r| && i <= |url|
    requires r[..i] == url[..i] && r[i] == 'w'
    requires !IsWordChar(url[i - 1])
    requires !HostMatchAt(url, j)
    ensures !HostMatchAt(r, j)
  {
    assert r[j] == r[..i][j] == url[..i][j] == url[j];
    if IsWordChar(url[j]) {
      var ej := WordRunEnd(url, j);
      assert ej < i;
      assert url[..ej + 1] == r[..ej + 1] by {
        assert url[..ej + 1] == url[..i][..ej + 1];
        assert r[..ej + 1] == r[..i][..ej + 1];
      }
      WordRunEndPrefix(url, r, j);
      if StartsWith(r[ej..], ".reddit") {
        PrefixKeepsReddit(url, r, i, ej);
      }
    }
  }

  /** `.reddit` at a run end before `i` in `r` is already there in `url`. */
  lemma PrefixKeepsReddit(url: string, r: string, i: nat, ej: nat)
    requires ej < i < |r| && i <= |url|
    requires r[..i] == url[..i] && r[i] == 'w'
    requires !IsWordChar(url[i - 1])
    requires StartsWith(r[ej..], ".reddit")
    ensures StartsWith(url[ej..], ".reddit")
  {
    var t := r[ej..];
    if ej + 7 <= i {
      assert t[..7] == r[ej..ej + 7] == r[..i][ej..ej + 7] == url[..i][ej..ej + 7] == url[ej..][..7];
    } else {
      // `.reddit` would cover either the non-word character before `i` or the
      // `w` at `i`.
      assert false;
    }
  }

  // ---------------------------------------------------------------------------
  // body.scan(/\bu\/([\w\d\-_]+)/i)

  /** The capture class `[\w\d\-_]`. */
  predicate IsNameChar(c: char) {
    IsWordChar(c) || c == '-'
  }

  function NameRunEnd(s: string, i: nat): (e: nat)
    requires i <= |s|
    decreases |s| - i
    ensures i <= e <= |s|
    ensures forall k :: i <= k < e ==> IsNameChar(s[k])
    ensures e == |s| || !IsNameChar(s[e])
  {
    if i < |s| && IsNameChar(s[i]) then NameRunEnd(s, i + 1) else i
  }

  /** The mention pattern matches at `p`: a word boundary, `u` or `U`, a
      slash, and at least one name character. */
  predicate MentionAt(s: string, p: nat) {
    && p + 2 < |s|
    && (s[p] == 'u' || s[p] == 'U')
    && s[p + 1] == '/'
    && IsNameChar(s[p + 2])
    && (p == 0 || !IsWordChar(s[p - 1]))
  }

  /** The name captured by a match at `p` (greedy: the whole run). */
  function MentionName(s: string, p: nat): (m: string)
    requires MentionAt(s, p)
  {
    s[p + 2..NameRunEnd(s, p + 2)]
  }

  /** The leftmost match at or after `p`. */
  function FirstMention(s: string, p: nat): (r: Option<nat>)
    decreases |s| - p
    ensures r.Some? ==> p <= r.value && MentionAt(s, r.value)
    ensures r.Some? ==> forall j :: p <= j < r.value ==> !MentionAt(s, j)
    ensures r.None? ==> forall j :: p <= j ==> !MentionAt(s, j)
  {
    if p >= |s| then None
    else if MentionAt(s, p) then Some(p)
    else FirstMention(s, p + 1)
  }

  /** The positions of the non-overlapping matches at or after `p`, as `scan`
      finds them: each search resumes where the previous capture ended. They
      are matches, in increasing order, the first is the leftmost match, and
      there are none only when nothing matches. */
  function MatchPositions(s: string, p: nat): (ps: seq<nat>)
    decreases |s| - p
    ensures forall k :: 0 <= k < |ps| ==> p <= ps[k] && MentionAt(s, ps[k])
    ensures forall j, k :: 0 <= j < k < |ps| ==> ps[j] < ps[k]
    ensures ps == [] <==> FirstMention(s, p).None?
    ensures ps != [] ==> ps[0] == FirstMention(s, p).value
  {
    if p >= |s| then []
    else if MentionAt(s, p) then
      var rest := MatchPositions(s, NameRunEnd(s, p + 2));
      var ps := [p] + rest;
      assert forall k :: 0 < k < |ps| ==> ps[k] == rest[k - 1];
      ps
    else MatchPositions(s, p + 1)
  }

  /** After the leftmost match, scanning resumes where its capture ends. */
  lemma {:induction false} MatchesResume(s: string, p: nat)
    requires FirstMention(s, p).Some?
    ensures MatchPositions(s, p)[1..] == MatchPositions(s, NameRunEnd(s, FirstMention(s, p).value + 2))
    decreases |s| - p
  {
    if MentionAt(s, p) {
      var rest := MatchPositions(s, NameRunEnd(s, p + 2));
      assert MatchPositions(s, p) == [p] + rest;
    } else {
      assert MatchPositions(s, p) == MatchPositions(s, p + 1);
      assert FirstMention(s, p) == FirstMention(s, p + 1);
      MatchesResume(s, p + 1);
    }
  }

  /** `scan` with one capture group: the names captured at the matches at or
      after `p`, left to right. Nothing is found exactly when nothing
      matches, and the first name is the leftmost match's. */
  function MentionsFrom(s: string, p: nat): (r: seq<string>)
    ensures |r| == |MatchPositions(s, p)|
    ensures forall k :: 0 <= k < |r| ==> r[k] == MentionName(s, MatchPositions(s, p)[k])
    ensures r == [] <==> forall q :: p <= q ==> !MentionAt(s, q)
    ensures r != [] ==> r[0] == MentionName(s, FirstMention(s, p).value)
    ensures forall k :: 0 <= k < |r| ==> r[k] != [] && forall c :: c in r[k] ==> IsNameChar(c)
  {
    var ps := MatchPositions(s, p);
    seq(|ps|, k requires 0 <= k < |ps| => MentionName(s, ps[k]))
  }

  /** The usernames mentioned in a comment body, as written. */
  function Mentions(body: string): seq<string> {
    MentionsFrom(body, 0)
  }

  /** A body that never contains `u/` or `U/` mentions nobody. */
  lemma NoSlashNoMentions(s: string, p: nat)
    requires !Contains(Lower(s), "u/")
    ensures MentionsFrom(s, p) == []
  {
    ContainsIff(Lower(s), "u/");
    forall q | p <= q ensures !MentionAt(s, q) {
      if MentionAt(s, q) {
        MentionShowsSlash(s, q);
      }
    }
  }

  /** Lowercased, a match starts with `u/`. */
  lemma MentionShowsSlash(s: string, q: nat)
    requires MentionAt(s, q)
    ensures OccursAt(Lower(s), "u/", q)
  {
    var l := Lower(s);
    assert l[q] == 'u' by {
      assert l[q] == LowerChar(s[q]);
      if s[q] == 'U' {
        assert LowerChar('U') == 'u';
      }
    }
    assert l[q + 1] == '/' by {
      assert l[q + 1] == LowerChar(s[q + 1]);
    }
    assert l[q..q + 2] == [l[q], l[q + 1]];
  }

  // ---------------------------------------------------------------------------
  // url.match?(/http.?:\/\/(\w+\.)?redd/)

  /** After `://` the host is either `redd...` directly or one word run and a
      dot followed by `redd`. */
  predicate ReddHostAt(s: string, q: nat) {
    q <= |s| &&
    (StartsWith(s[q..], "redd") ||
     (q < |s| && IsWordChar(s[q]) && StartsWith(s[WordRunEnd(s, q)..], ".redd")))
  }

  predicate SchemeRestAt(s: string, p: nat) {
    p <= |s| && StartsWith(s[p..], "://") && ReddHostAt(s, p + 3)
  }

  /** The pattern matches at `i`; `.?` takes one character other than a
      newline, or none. */
  predicate RedditUrlAt(s: string, i: nat) {
    && i <= |s|
    && StartsWith(s[i..], "http")
    && (SchemeRestAt(s, i + 4) || (i + 4 < |s| && s[i + 4] != '\n' && SchemeRestAt(s, i + 5)))
  }

  /** Every match starts with "http". */
  lemma MatchesStartWithHttp(s: string)
    ensures forall i: nat :: RedditUrlAt(s, i) ==> OccursAt(s, "http", i)
  {
    forall i: nat | RedditUrlAt(s, i) ensures OccursAt(s, "http", i) {
      assert s[i..][..4] == s[i..i + 4];
    }
  }

  /** Tries the pattern at each occurrence of "http" from `from` on. */
  function RedditUrlFrom(s: string, from: nat): (b: bool)
    decreases |s| + 1 - from
    ensures b <==> exists i :: from <= i && RedditUrlAt(s, i)
  {
    MatchesStartWithHttp(s);
    match IndexFrom(s, "http", from)
    case None => false
    case Some(i) => RedditUrlAt(s, i) || RedditUrlFrom(s, i + 1)
  }

  /** `url.match?(/http.?:\/\/(\w+\.)?redd/)`: the pattern matches somewhere. */
  predicate IsRedditUrl(url: string) {
    RedditUrlFrom(url, 0)
  }
}

=== FILE: report.dfy ===
/**
 From the index thread to the finished report (`generate_markdown.rb`):
 pick the index links that name a category, build one table per nomination
 thread, and join the tables.

 Fetching threads is not modelled: the comments of a nomination thread are
 given by a function from its URL.
 */
module Report {
  import opened Results
  import opened Strings
  import opened Markdown
  import opened Patterns
  import opened Columns
  import opened Sequences

  /** The index thread's post: its title and its parsed body. */
  datatype Post = Post(title: string, tree: Node)

  /** An index link together with the category it was matched to. */
  datatype Nomination = Nomination(link: Hyperlink, category: ThreadConfig)

  // ---------------------------------------------------------------------------
  // fetch_individual_nomination_threads

  /** The sanity check on the index thread's title: it mentions the year and,
      in any case, the word "index". */
  predicate IndexTitleOk(title: string, year: int) {
    Contains(title, IntToString(year)) && Contains(Lower(title), "index")
  }

  /** `categories.values.find { |c| text.include?(c.keyword) }`, as a position. */
  function FirstCategory(text: string, categories: seq<ThreadConfig>): (r: Option<nat>)
    ensures r.Some? ==> r.value < |categories| && Contains(text, categories[r.value].keyword)
    ensures r.Some? ==> forall j :: 0 <= j < r.value ==> !Contains(text, categories[j].keyword)
    ensures r.None? <==> forall j :: 0 <= j < |categories| ==> !Contains(text, categories[j].keyword)
  {
    if categories == [] then None
    else if Contains(text, categories[0].keyword) then Some(0)
    else
      match FirstCategory(text, categories[1..])
      case None => None
      case Some(k) => Some(k + 1)
  }

  /** Whether an index link becomes a nomination: the first `select` keeps
      links whose URL matches `/http.?:\/\/(\w+\.)?redd/`, the second those
      whose lowercased text contains some category's keyword. */
  predicate Kept(link: Hyperlink, categories: seq<ThreadConfig>) {
    IsRedditUrl(link.url) && FirstCategory(Lower(link.text), categories).Some?
  }

  /** The category an index link nominates for, if it is kept. */
  function Classify(link: Hyperlink, categories: seq<ThreadConfig>): (r: Option<ThreadConfig>)
    ensures r.Some? <==> Kept(link, categories)
    ensures r.Some? ==> r.value == categories[FirstCategory(Lower(link.text), categories).value]
  {
    if !IsRedditUrl(link.url) then None
    else
      match FirstCategory(Lower(link.text), categories)
      case None => None
      case Some(k) => Some(categories[k])
  }

  /** The links a classifier assigns a category, each paired with it, in order. */
  function Keep(links: seq<Hyperlink>, classify: Hyperlink -> Option<ThreadConfig>): (r: seq<Nomination>)
    ensures |r| <= |links|
  {
    if links == [] then []
    else
      (match classify(links[0])
       case None => []
       case Some(c) => [Nomination(links[0], c)])
      + Keep(links[1..], classify)
  }

  function Classifier(categories: seq<ThreadConfig>): Hyperlink -> Option<ThreadConfig> {
    l => Classify(l, categories)
  }

  /** Both selections over the index links, in index order. */
  function SelectNominations(links: seq<Hyperlink>, categories: seq<ThreadConfig>): seq<Nomination> {
    Keep(links, Classifier(categories))
  }

  /** Every kept link carries the category the classifier gave it. */
  lemma {:induction false} KeepSound(links: seq<Hyperlink>, classify: Hyperlink -> Option<ThreadConfig>)
    ensures forall k :: 0 <= k < |Keep(links, classify)| ==>
              classify(Keep(links, classify)[k].link) == Some(Keep(links, classify)[k].category)
  {
    if links != [] {
      KeepSound(links[1..], classify);
      var r := Keep(links, classify);
      var rest := Keep(links[1..], classify);
      match classify(links[0])
      case None =>
        assert r == rest;
      case Some(c) =>
        assert r == [Nomination(links[0], c)] + rest;
        forall k | 0 <= k < |r| ensures classify(r[k].link) == Some(r[k].category) {
          if k > 0 {
            assert r[k] == rest[k - 1];
          }
        }
    }
  }

  function LinksOf(r: seq<Nomination>): (ls: seq<Hyperlink>)
    ensures |ls| == |r|
    ensures forall k :: 0 <= k < |r| ==> ls[k] == r[k].link
  {
    seq(|r|, k requires 0 <= k < |r| => r[k].link)
  }

  /** The links of `Keep` over a non-empty list: the first link if it is
      classified, then the rest. */
  lemma KeptLinksStep(links: seq<Hyperlink>, classify: Hyperlink -> Option<ThreadConfig>)
    requires links != []
    ensures LinksOf(Keep(links, classify)) ==
              (if classify(links[0]).Some? then [links[0]] else []) + LinksOf(Keep(links[1..], classify))
  {
    var rest := Keep(links[1..], classify);
    match classify(links[0])
    case None =>
      assert Keep(links, classify) == rest;
    case Some(c) =>
      assert Keep(links, classify) == [Nomination(links[0], c)] + rest;
  }

  /** The kept links appear among the input links in the same order. */
  lemma {:induction false} KeepIsSubsequence(links: seq<Hyperlink>, classify: Hyperlink -> Option<ThreadConfig>)
    ensures IsSubsequence(LinksOf(Keep(links, classify)), links)
  {
    if links == [] {
      assert LinksOf(Keep(links, classify)) == [];
    } else {
      KeepIsSubsequence(links[1..], classify);
      KeptLinksStep(links, classify);
      var kept := LinksOf(Keep(links, classify));
      var rest := LinksOf(Keep(links[1..], classify));
      if classify(links[0]).Some? {
        assert kept == [links[0]] + rest;
        assert kept[0] == links[0] && kept[1..] == rest;
      } else {
        assert kept == rest;
        SubsequenceSkip(rest, links);
      }
    }
  }

  /** A link is kept exactly as often as it occurs, if it is classified, and
      never otherwise. */
  lemma {:induction false} KeepCounts(links: seq<Hyperlink>, classify: Hyperlink -> Option<ThreadConfig>)
    ensures forall l :: multiset(LinksOf(Keep(links, classify)))[l] ==
                          if classify(l).Some? then multiset(links)[l] else 0
  {
    if links == [] {
      assert LinksOf(Keep(links, classify)) == [];
    } else {
      KeepCounts(links[1..], classify);
      KeptLinksStep(links, classify);
      assert links == [links[0]] + links[1..];
    }
  }

  /** The kept links are the classified ones, in order, each as often as it
      appears among the input links. */
  lemma KeepIsOrderedFilter(links: seq<Hyperlink>, classify: Hyperlink -> Option<ThreadConfig>)
    ensures IsSubsequence(LinksOf(Keep(links, classify)), links)
    ensures forall l :: multiset(LinksOf(Keep(links, classify)))[l] ==
                          if classify(l).Some? then multiset(links)[l] else 0
  {
    KeepIsSubsequence(links, classify);
    KeepCounts(links, classify);
  }

  /** Each nomination's link passed both selections, and its category is the
      first whose keyword the link text contains. */
  lemma SelectionSound(links: seq<Hyperlink>, categories: seq<ThreadConfig>)
    ensures forall k :: 0 <= k < |SelectNominations(links, categories)| ==>
              var nom := SelectNominations(links, categories)[k];
              Kept(nom.link, categories) &&
              nom.category == categories[FirstCategory(Lower(nom.link.text), categories).value]
  {
    var classify := Classifier(categories);
    KeepSound(links, classify);
    var r := SelectNominations(links, categories);
    assert r == Keep(links, classify);
    forall k | 0 <= k < |r|
      ensures Kept(r[k].link, categories)
      ensures r[k].category == categories[FirstCategory(Lower(r[k].link.text), categories).value]
    {
      assert classify(r[k].link) == Some(r[k].category);
    }
  }

  /** The nominations' links are the index links that pass both selections,
      in index order, each as often as it appears in the index. */
  lemma SelectionIsOrderedFilter(links: seq<Hyperlink>, categories: seq<ThreadConfig>)
    ensures IsSubsequence(LinksOf(SelectNominations(links, categories)), links)
    ensures forall l :: multiset(LinksOf(SelectNominations(links, categories)))[l] ==
                          if Kept(l, categories) then multiset(links)[l] else 0
  {
    var classify := Classifier(categories);
    KeepIsOrderedFilter(links, classify);
    forall l ensures classify(l).Some? == Kept(l, categories) {
    }
  }

  // ---------------------------------------------------------------------------
  // process_nomination_thread

  /** A rendered table: heading, column labels, and rows of cells. */
  datatype Table = Table(title: string, labels: seq<string>, rows: seq<seq<string>>)

  /** `Array#transpose` of equally long columns. */
  function Transpose(cols: seq<seq<string>>, n: nat): (rows: seq<seq<string>>)
    requires forall j :: 0 <= j < |cols| ==> |cols[j]| == n
    ensures |rows| == (if cols == [] then 0 else n)
    ensures forall i :: 0 <= i < |rows| ==> |rows[i]| == |cols|
    ensures forall i, j :: 0 <= i < |rows| && 0 <= j < |cols| ==> rows[i][j] == cols[j][i]
  {
    if cols == [] then []
    else if |cols| == 1 then seq(n, i requires 0 <= i < n => [cols[0][i]])
    else
      var rest := Transpose(cols[1..], n);
      seq(n, i requires 0 <= i < n => [cols[0][i]] + rest[i])
  }

  /** Transposing twice gives back the columns. */
  lemma TransposeTwice(cols: seq<seq<string>>, n: nat)
    requires forall j :: 0 <= j < |cols| ==> |cols[j]| == n
    requires cols != [] && n > 0
    ensures Transpose(Transpose(cols, n), |cols|) == cols
  {
    var rows := Transpose(cols, n);
    var back := Transpose(rows, |cols|);
    assert |back| == |cols|;
    forall j | 0 <= j < |cols| ensures back[j] == cols[j] {
      assert |back[j]| == n == |cols[j]|;
      forall i | 0 <= i < n ensures back[j][i] == cols[j][i] {
        assert back[j][i] == rows[i][j];
      }
    }
  }

  /** Every extractor called with the batch, in column order; the first
      failure aborts. */
  function ColumnCells(funcs: seq<Column>, comments: seq<Comment>, store: Store): (r: Result<seq<seq<string>>, Error>)
    ensures r.Failure? <==> exists j, i :: 0 <= j < |funcs| && 0 <= i < |comments| && Cell(funcs[j], comments[i], store).Failure?
    ensures r.Success? ==> |r.value| == |funcs|
    ensures r.Success? ==> forall j :: 0 <= j < |funcs| ==> |r.value[j]| == |comments|
    ensures r.Success? ==> forall j, i :: 0 <= j < |funcs| && 0 <= i < |comments| ==>
              Cell(funcs[j], comments[i], store) == Success(r.value[j][i])
  {
    var rs := seq(|funcs|, j requires 0 <= j < |funcs| => Cells(funcs[j], comments, store));
    var r := AllOrFirstFailure(rs);
    assert r.Failure? ==> exists j, i :: 0 <= j < |funcs| && 0 <= i < |comments| && Cell(funcs[j], comments[i], store).Failure? by {
      if r.Failure? {
        var j :| 0 <= j < |rs| && rs[j].Failure?;
        assert Cells(funcs[j], comments, store).Failure?;
      }
    }
    assert (exists j, i :: 0 <= j < |funcs| && 0 <= i < |comments| && Cell(funcs[j], comments[i], store).Failure?) ==> r.Failure? by {
      if exists j, i :: 0 <= j < |funcs| && 0 <= i < |comments| && Cell(funcs[j], comments[i], store).Failure? {
        var j, i :| 0 <= j < |funcs| && 0 <= i < |comments| && Cell(funcs[j], comments[i], store).Failure?;
        assert rs[j].Failure?;
      }
    }
    r
  }

  /** The labels of a category's columns: each extractor called without a batch. */
  function Labels(funcs: seq<Column>): (r: seq<string>)
    ensures |r| == |funcs|
    ensures forall j :: 0 <= j < |funcs| ==> r[j] == Label(funcs[j])
  {
    seq(|funcs|, j requires 0 <= j < |funcs| => Label(funcs[j]))
  }

  /** The table of one nomination thread: row `i`, column `j` is extractor
      `j`'s cell for comment `i`. With no columns there are no rows. */
  function BuildTable(cfg: ThreadConfig, comments: seq<Comment>, store: Store): (r: Result<Table, Error>)
    ensures r.Failure? <==> exists j, i :: 0 <= j < |cfg.funcs| && 0 <= i < |comments| && Cell(cfg.funcs[j], comments[i], store).Failure?
    ensures r.Success? ==> r.value.title == cfg.header && r.value.labels == Labels(cfg.funcs)
    ensures r.Success? ==> |r.value.rows| == (if cfg.funcs == [] then 0 else |comments|)
    ensures r.Success? ==> forall i :: 0 <= i < |r.value.rows| ==>
              |r.value.rows[i]| == |cfg.funcs| &&
              forall j :: 0 <= j < |cfg.funcs| ==> Cell(cfg.funcs[j], comments[i], store) == Success(r.value.rows[i][j])
  {
    match ColumnCells(cfg.funcs, comments, store)
    case Failure(e) => Failure(e)
    case Success(cols) =>
      var rows := Transpose(cols, |comments|);
      assert forall i, j :: 0 <= i < |rows| && 0 <= j < |cfg.funcs| ==>
               Cell(cfg.funcs[j], comments[i], store) == Success(rows[i][j]) by {
        forall i, j | 0 <= i < |rows| && 0 <= j < |cfg.funcs|
          ensures Cell(cfg.funcs[j], comments[i], store) == Success(rows[i][j])
        {
          assert rows[i][j] == cols[j][i];
        }
      }
      Success(Table(cfg.header, Labels(cfg.funcs), rows))
  }

  function Dashes(n: nat): (r: seq<string>)
    ensures |r| == n && forall j :: 0 <= j < n ==> r[j] == "---"
  {
    seq(n, _ => "---")
  }

  function RowLines(rows: seq<seq<string>>): (r: seq<string>)
    ensures |r| == |rows|
    ensures forall i :: 0 <= i < |rows| ==> r[i] == Join(rows[i], " | ")
  {
    seq(|rows|, i requires 0 <= i < |rows| => Join(rows[i], " | "))
  }

  function HeaderRow(t: Table): string {
    Join(t.labels, " | ")
  }

  function SeparatorRow(t: Table): string {
    Join(Dashes(|t.labels|), "|")
  }

  /** The markdown of one table. */
  function RenderTable(t: Table): string {
    "###" + t.title + "\n\n" + (HeaderRow(t) + "\n" + (SeparatorRow(t) + "\n" + Join(RowLines(t.rows), "\n")))
  }

  predicate NoNewline(s: string) {
    '\n' !in s
  }

  /** Read back line by line, a table is its heading, a blank line, the
      header row, the separator row and one line per row; with no rows the
      text ends right after the separator's line break. */
  lemma RenderedLines(t: Table)
    requires NoNewline(t.title)
    requires forall j :: 0 <= j < |t.labels| ==> NoNewline(t.labels[j])
    requires forall i, j :: 0 <= i < |t.rows| && 0 <= j < |t.rows[i]| ==> NoNewline(t.rows[i][j])
    ensures SplitOn(RenderTable(t), '\n') ==
              ["###" + t.title, "", HeaderRow(t), SeparatorRow(t)]
              + (if t.rows == [] then [""] else RowLines(t.rows))
  {
    var a, h, sep := "###" + t.title, HeaderRow(t), SeparatorRow(t);
    var body := Join(RowLines(t.rows), "\n");
    LinesFree(t);
    var s3 := sep + "\n" + body;
    var s2 := h + "\n" + s3;
    var s1 := "" + "\n" + s2;
    assert s1 == "\n" + s2;
    assert RenderTable(t) == a + "\n" + s1;
    SplitOnAppend(sep, body, '\n');
    SplitOnAppend(h, s3, '\n');
    SplitOnAppend("", s2, '\n');
    SplitOnAppend(a, s1, '\n');
    var lines := SplitOn(body, '\n');
    assert SplitOn(RenderTable(t), '\n') == [a] + ([""] + ([h] + ([sep] + lines)));
    PrependFour(a, "", h, sep, lines);
    BodyLines(t.rows);
  }

  lemma PrependFour(a: string, b: string, c: string, d: string, rest: seq<string>)
    ensures [a] + ([b] + ([c] + ([d] + rest))) == [a, b, c, d] + rest
  {
  }

  /** No part of a table's markdown holds a line break of its own. */
  lemma LinesFree(t: Table)
    requires NoNewline(t.title)
    requires forall j :: 0 <= j < |t.labels| ==> NoNewline(t.labels[j])
    requires forall i, j :: 0 <= i < |t.rows| && 0 <= j < |t.rows[i]| ==> NoNewline(t.rows[i][j])
    ensures NoNewline("###" + t.title) && NoNewline(HeaderRow(t)) && NoNewline(SeparatorRow(t))
    ensures forall i :: 0 <= i < |t.rows| ==> NoNewline(RowLines(t.rows)[i])
  {
    var noNl := (ch: char) => ch != '\n';
    JoinChars(t.labels, " | ", noNl);
    JoinChars(Dashes(|t.labels|), "|", noNl);
    forall i | 0 <= i < |t.rows| ensures NoNewline(RowLines(t.rows)[i]) {
      JoinChars(t.rows[i], " | ", noNl);
    }
  }

  lemma BodyLines(rows: seq<seq<string>>)
    requires forall i :: 0 <= i < |rows| ==> NoNewline(RowLines(rows)[i])
    ensures SplitOn(Join(RowLines(rows), "\n"), '\n') == if rows == [] then [""] else RowLines(rows)
  {
    if rows != [] {
      SplitOnJoin(RowLines(rows), '\n');
    }
  }

  /** A thread without comments still renders its heading, header row and
      separator, and nothing after them. */
  lemma ZeroComments(cfg: ThreadConfig, store: Store)
    ensures BuildTable(cfg, [], store).Success?
    ensures BuildTable(cfg, [], store).value.rows == []
    ensures RenderTable(BuildTable(cfg, [], store).value) ==
              "###" + cfg.header + "\n\n" + Join(Labels(cfg.funcs), " | ") + "\n"
              + Join(Dashes(|cfg.funcs|), "|") + "\n"
  {
  }

  /** The separator row has one "---" per column, joined by "|". */
  lemma SeparatorLength(t: Table)
    requires t.labels != []
    ensures |SeparatorRow(t)| == 4 * |t.labels| - 1
  {
    var d := Dashes(|t.labels|);
    assert TotalLength(d) == 3 * |d| by {
      DashesLength(d);
    }
  }

  lemma {:induction false} DashesLength(d: seq<string>)
    requires forall j :: 0 <= j < |d| ==> d[j] == "---"
    ensures TotalLength(d) == 3 * |d|
  {
    if d != [] {
      DashesLength(d[1..]);
    }
  }

  // ---------------------------------------------------------------------------
  // main

  const TableSeparator := "\n\n---\n\n"

  /** A rendered table opens with its heading and a blank line. */
  lemma RenderedHeading(t: Table)
    ensures StartsWith(RenderTable(t), "###" + t.title + "\n\n")
  {
    var prefix := "###" + t.title + "\n\n";
    assert RenderTable(t)[..|prefix|] == prefix;
  }

  /** `process_nomination_thread`: the markdown of one nomination's table,
      built from the comments of its thread. */
  function RenderNomination(nom: Nomination, fetch: string -> seq<Comment>, store: Store): (r: Result<string, Error>)
    ensures r.Failure? <==> BuildTable(nom.category, fetch(nom.link.url), store).Failure?
    ensures r.Success? ==> StartsWith(r.value, "###" + nom.category.header + "\n\n")
    ensures r.Success? ==> BuildTable(nom.category, fetch(nom.link.url), store).Success? &&
                           r.value == RenderTable(BuildTable(nom.category, fetch(nom.link.url), store).value)
  {
    match BuildTable(nom.category, fetch(nom.link.url), store)
    case Failure(e) => Failure(e)
    case Success(t) =>
      RenderedHeading(t);
      Success(RenderTable(t))
  }

  function Renderer(fetch: string -> seq<Comment>, store: Store): Nomination -> Result<string, Error> {
    nom => RenderNomination(nom, fetch, store)
  }

  /** Renders each nomination in order; the first failure aborts the run. */
  function RenderAll(noms: seq<Nomination>, render: Nomination -> Result<string, Error>): (r: Result<seq<string>, Error>)
    ensures r.Success? ==> |r.value| == |noms|
    ensures r.Success? ==> forall k :: 0 <= k < |noms| ==> render(noms[k]) == Success(r.value[k])
    ensures r.Failure? <==> exists k :: 0 <= k < |noms| && render(noms[k]).Failure?
    ensures r.Failure? ==> exists k :: 0 <= k < |noms| && render(noms[k]) == Failure(r.error) &&
                                       forall j :: 0 <= j < k ==> render(noms[j]).Success?
  {
    if noms == [] then Success([])
    else
      match render(noms[0])
      case Failure(e) => Failure(e)
      case Success(t) =>
        match RenderAll(noms[1..], render)
        case Failure(e) =>
          assert forall k :: 0 <= k < |noms| - 1 ==> noms[1..][k] == noms[k + 1];
          var k :| 0 <= k < |noms| - 1 && render(noms[1..][k]) == Failure(e) &&
                   forall j :: 0 <= j < k ==> render(noms[1..][j]).Success?;
          assert forall j :: 0 <= j < k + 1 ==> render(noms[j]).Success? by {
            forall j | 0 <= j < k + 1 ensures render(noms[j]).Success? {
              if j > 0 {
                assert noms[j] == noms[1..][j - 1];
              }
            }
          }
          Failure(e)
        case Success(rest) =>
          assert forall k :: 1 <= k < |noms| ==> noms[k] == noms[1..][k - 1];
          Success([t] + rest)
  }

  /** The whole run: check the index title, select the nominations from the
      index body, render one table per nomination and join them. */
  function GenerateReport(year: int, index: Post, categories: seq<ThreadConfig>,
                          fetch: string -> seq<Comment>, store: Store): (r: Result<string, Error>)
    ensures !IndexTitleOk(index.title, year) ==> r == Failure(NotTheIndex(year))
    ensures IndexTitleOk(index.title, year) ==>
              (r.Failure? <==> exists k :: 0 <= k < |SelectNominations(ExtractLinks(index.tree), categories)| &&
                                 RenderNomination(SelectNominations(ExtractLinks(index.tree), categories)[k], fetch, store).Failure?)
    ensures IndexTitleOk(index.title, year) && SelectNominations(ExtractLinks(index.tree), categories) == [] ==> r == Success("")
  {
    if !IndexTitleOk(index.title, year) then Failure(NotTheIndex(year))
    else
      match RenderAll(SelectNominations(ExtractLinks(index.tree), categories), Renderer(fetch, store))
      case Failure(e) => Failure(e)
      case Success(tables) => Success(Join(tables, TableSeparator))
  }

  /** On success the report is the nominations' rendered tables in index
      order, one per nomination and each opening with its category's
      heading, joined by horizontal rules. */
  lemma ReportLayout(year: int, index: Post, categories: seq<ThreadConfig>,
                     fetch: string -> seq<Comment>, store: Store, noms: seq<Nomination>)
    requires noms == SelectNominations(ExtractLinks(index.tree), categories)
    requires GenerateReport(year, index, categories, fetch, store).Success?
    ensures IndexTitleOk(index.title, year)
    ensures RenderAll(noms, Renderer(fetch, store)).Success?
    ensures |RenderAll(noms, Renderer(fetch, store)).value| == |noms|
    ensures GenerateReport(year, index, categories, fetch, store).value ==
              Join(RenderAll(noms, Renderer(fetch, store)).value, TableSeparator)
    ensures forall k :: 0 <= k < |noms| ==>
              StartsWith(RenderAll(noms, Renderer(fetch, store)).value[k], "###" + noms[k].category.header + "\n\n")
    ensures forall k :: 0 <= k < |noms| ==>
              BuildTable(noms[k].category, fetch(noms[k].link.url), store).Success? &&
              RenderAll(noms, Renderer(fetch, store)).value[k] ==
                RenderTable(BuildTable(noms[k].category, fetch(noms[k].link.url), store).value)
  {
    var tables := RenderAll(noms, Renderer(fetch, store)).value;
    forall k | 0 <= k < |noms|
      ensures StartsWith(tables[k], "###" + noms[k].category.header + "\n\n")
      ensures BuildTable(noms[k].category, fetch(noms[k].link.url), store).Success? &&
              tables[k] == RenderTable(BuildTable(noms[k].category, fetch(noms[k].link.url), store).value)
    {
      assert Renderer(fetch, store)(noms[k]) == Success(tables[k]);
    }
  }
}

=== FILE: results.dfy ===
/** Optional values and success/failure results used throughout the model. */
module Results {

  /** A value that may be absent; Ruby's `nil` where the source tolerates it. */
  datatype Option<+T> = None | Some(value: T)

  /** The outcome of an operation that the source can abort with an exception. */
  datatype Result<+T, +E> = Success(value: T) | Failure(error: E)
}

=== FILE: sequences.dfy ===
/** Order-preserving selection from a sequence, shared by the filters of the
    model (`select`, `reject`). */
module Sequences {

  /** `a` is `b` with some elements left out. */
  predicate IsSubsequence<T(==)>(a: seq<T>, b: seq<T>)
    decreases |b|
  {
    if a == [] then true
    else if b == [] then false
    else (a[0] == b[0] && IsSubsequence(a[1..], b[1..])) || IsSubsequence(a, b[1..])
  }

  lemma SubsequenceSkip<T>(a: seq<T>, b: seq<T>)
    requires b != [] && IsSubsequence(a, b[1..])
    ensures IsSubsequence(a, b)
  {
  }
}

=== FILE: strings.dfy ===
/**
 Models of the Ruby `String` and `Array` methods the report generator relies on:
 ASCII `downcase`, `include?`, `start_with?`, `sub` with a literal pattern,
 `Array#join`, `split('/')`, and `Integer#to_s`.
 */
module Strings {
  import opened Results

  // ---------------------------------------------------------------------------
  // Characters

  predicate IsUpper(c: char) {
    'A' <= c <= 'Z'
  }

  predicate IsDigit(c: char) {
    '0' <= c <= '9'
  }

  /** A character of the regular-expression class `\w`: `[A-Za-z0-9_]`. */
  predicate IsWordChar(c: char) {
    ('a' <= c <= 'z') || IsUpper(c) || IsDigit(c) || c == '_'
  }

  function LowerChar(c: char): (r: char)
    ensures !IsUpper(r)
    ensures IsWordChar(r) <==> IsWordChar(c)
    ensures !IsUpper(c) ==> r == c
  {
    if IsUpper(c) then (c as int + 32) as char else c
  }

  /** `String#downcase`, restricted to ASCII letters. */
  function Lower(s: string): (r: string)
    ensures |r| == |s|
    ensures forall i :: 0 <= i < |s| ==> r[i] == LowerChar(s[i])
  {
    if s == [] then [] else [LowerChar(s[0])] + Lower(s[1..])
  }

  // ---------------------------------------------------------------------------
  // Prefixes and substrings

  /** `String#start_with?` */
  predicate StartsWith(s: string, prefix: string) {
    |prefix| <= |s| && s[..|prefix|] == prefix
  }

  /** `t` occurs in `s` starting at index `i`. */
  predicate OccursAt(s: string, t: string, i: int) {
    0 <= i && i + |t| <= |s| && s[i..i + |t|] == t
  }

  /** The first index at or after `from` at which `t` occurs in `s`. */
  function IndexFrom(s: string, t: string, from: nat): (r: Option<nat>)
    decreases |s| - from
    ensures r.Some? ==> from <= r.value && OccursAt(s, t, r.value)
    ensures r.Some? ==> forall j :: from <= j < r.value ==> !OccursAt(s, t, j)
    ensures r.None? ==> forall j :: from <= j ==> !OccursAt(s, t, j)
  {
    if from + |t| > |s| then None
    else if s[from..from + |t|] == t then Some(from)
    else IndexFrom(s, t, from + 1)
  }

  /** `String#include?` */
  predicate Contains(s: string, t: string) {
    IndexFrom(s, t, 0).Some?
  }

  lemma ContainsIff(s: string, t: string)
    ensures Contains(s, t) <==> exists i :: OccursAt(s, t, i)
  {
    if !Contains(s, t) {
      forall i ensures !OccursAt(s, t, i) {
        if i >= 0 {
          assert !OccursAt(s, t, i);
        }
      }
    }
  }

  /** `String#sub(pattern, replacement)` with a literal pattern: replaces the
      first occurrence only, or returns `s` unchanged. */
  function Sub(s: string, pattern: string, replacement: string): (r: string)
    ensures IndexFrom(s, pattern, 0).None? ==> r == s
    ensures IndexFrom(s, pattern, 0).Some? ==> |r| == |s| - |pattern| + |replacement|
    ensures IndexFrom(s, pattern, 0).Some? ==>
              var i := IndexFrom(s, pattern, 0).value;
              && r[..i] == s[..i]
              && r[i..i + |replacement|] == replacement
              && r[i + |replacement|..] == s[i + |pattern|..]
  {
    match IndexFrom(s, pattern, 0)
    case None => s
    case Some(i) => s[..i] + replacement + s[i + |pattern|..]
  }

  // ---------------------------------------------------------------------------
  // Array#join

  /** Total length of the strings in `xs`. */
  function TotalLength(xs: seq<string>): nat {
    if xs == [] then 0 else |xs[0]| + TotalLength(xs[1..])
  }

  /** `Array#join(sep)` over strings. */
  function Join(xs: seq<string>, sep: string): (r: string)
    ensures |r| == TotalLength(xs) + (if xs == [] then 0 else (|xs| - 1) * |sep|)
  {
    if xs == [] then ""
    else if |xs| == 1 then xs[0]
    else xs[0] + sep + Join(xs[1..], sep)
  }

  /** Every character of a joined string comes from an element or from the separator. */
  lemma {:induction false} JoinChars(xs: seq<string>, sep: string, P: char -> bool)
    requires forall k, j :: 0 <= k < |xs| && 0 <= j < |xs[k]| ==> P(xs[k][j])
    requires forall j :: 0 <= j < |sep| ==> P(sep[j])
    ensures forall j :: 0 <= j < |Join(xs, sep)| ==> P(Join(xs, sep)[j])
  {
    if |xs| > 1 {
      JoinChars(xs[1..], sep, P);
      var rest := Join(xs[1..], sep);
      forall j | 0 <= j < |Join(xs, sep)| ensures P(Join(xs, sep)[j]) {
        if j < |xs[0]| {
          assert Join(xs, sep)[j] == xs[0][j];
        } else if j < |xs[0]| + |sep| {
          assert Join(xs, sep)[j] == sep[j - |xs[0]|];
        } else {
          assert Join(xs, sep)[j] == rest[j - |xs[0]| - |sep|];
        }
      }
    } else if |xs| == 1 {
      assert Join(xs, sep) == xs[0];
    }
  }

  /** Every element but the first, each prefixed with `t`. */
  function PrefixRest(xs: seq<string>, t: string): (r: seq<string>)
    requires xs != []
    ensures |r| == |xs| && r[0] == xs[0]
    ensures forall k :: 1 <= k < |xs| ==> r[k] == t + xs[k]
  {
    [xs[0]] + seq(|xs| - 1, k requires 0 <= k < |xs| - 1 => t + xs[k + 1])
  }

  /** Prepending `t` to a join prepends it to the first element. */
  lemma JoinPrefixFirst(ys: seq<string>, t: string, sep: string)
    requires ys != []
    ensures t + Join(ys, sep) == Join([t + ys[0]] + ys[1..], sep)
  {
    var zs := [t + ys[0]] + ys[1..];
    if |ys| > 1 {
      assert zs[1..] == ys[1..];
      assert Join(zs, sep) == (t + ys[0]) + sep + Join(ys[1..], sep);
    }
  }

  /** Joining with `[c] + t` is joining with `[c]` after prefixing every
      element but the first with `t`. */
  lemma {:induction false} JoinLongSeparator(xs: seq<string>, c: char, t: string)
    requires xs != []
    ensures Join(xs, [c] + t) == Join(PrefixRest(xs, t), [c])
  {
    if |xs| > 1 {
      var ys := PrefixRest(xs, t);
      var tail := PrefixRest(xs[1..], t);
      JoinLongSeparator(xs[1..], c, t);
      JoinPrefixFirst(tail, t, [c]);
      assert ys[1..] == [t + tail[0]] + tail[1..];
      assert Join(ys, [c]) == xs[0] + [c] + Join(ys[1..], [c]);
    }
  }

  // ---------------------------------------------------------------------------
  // String#split with a one-character separator

  /** All fields of `s` between occurrences of `c`, empty fields included. */
  function SplitOn(s: string, c: char): (r: seq<string>)
    ensures |r| >= 1
    ensures forall k :: 0 <= k < |r| ==> c !in r[k]
  {
    if s == [] then [""]
    else if s[0] == c then [""] + SplitOn(s[1..], c)
    else
      var rest := SplitOn(s[1..], c);
      [[s[0]] + rest[0]] + rest[1..]
  }

  /** Joining the fields back with the separator restores the string. */
  lemma {:induction false} JoinSplitOn(s: string, c: char)
    ensures Join(SplitOn(s, c), [c]) == s
  {
    if s == [] {
    } else if s[0] == c {
      JoinSplitOn(s[1..], c);
      assert SplitOn(s, c) == [""] + SplitOn(s[1..], c);
      assert (([""] + SplitOn(s[1..], c))[1..]) == SplitOn(s[1..], c);
    } else {
      JoinSplitOn(s[1..], c);
      var rest := SplitOn(s[1..], c);
      var r := [[s[0]] + rest[0]] + rest[1..];
      assert SplitOn(s, c) == r;
      if |rest| == 1 {
        assert Join(rest, [c]) == rest[0];
      } else {
        assert Join(rest, [c]) == rest[0] + [c] + Join(rest[1..], [c]);
        assert r[1..] == rest[1..];
      }
    }
  }

  /** Splitting a separator-free join recovers the pieces. */
  lemma {:induction false} SplitOnJoin(xs: seq<string>, c: char)
    requires xs != []
    requires forall k :: 0 <= k < |xs| ==> c !in xs[k]
    ensures SplitOn(Join(xs, [c]), c) == xs
  {
    if |xs| == 1 {
      SplitOnFree(xs[0], c);
    } else {
      SplitOnJoin(xs[1..], c);
      SplitOnAppend(xs[0], Join(xs[1..], [c]), c);
      SplitOnFree(xs[0], c);
      assert [xs[0]] + xs[1..] == xs;
    }
  }

  /** A string without the separator is a single field. */
  lemma {:induction false} SplitOnFree(s: string, c: char)
    requires c !in s
    ensures SplitOn(s, c) == [s]
  {
    if s != [] {
      SplitOnFree(s[1..], c);
      assert [s[0]] + s[1..] == s;
    }
  }

  /** Splitting `a + c + b` splits `a` and `b` separately. */
  lemma {:induction false} SplitOnAppend(a: string, b: string, c: char)
    requires c !in a
    ensures SplitOn(a + [c] + b, c) == [a] + SplitOn(b, c)
  {
    if a == [] {
      assert a + [c] + b == [c] + b;
      assert ([c] + b)[1..] == b;
    } else {
      assert (a + [c] + b)[1..] == a[1..] + [c] + b;
      SplitOnAppend(a[1..], b, c);
      assert [a[0]] + a[1..] == a;
    }
  }

  /** Ruby's `split` drops trailing empty fields. */
  function DropTrailingEmpty(xs: seq<string>): (r: seq<string>)
    ensures |r| <= |xs|
    ensures r == xs[..|r|]
    ensures r == [] || r[|r| - 1] != ""
    ensures forall k :: |r| <= k < |xs| ==> xs[k] == ""
  {
    if xs == [] then []
    else if xs[|xs| - 1] == "" then DropTrailingEmpty(xs[..|xs| - 1])
    else xs
  }

  /** `String#split(sep)` for a one-character separator string. */
  function RubySplit(s: string, c: char): (r: seq<string>)
    ensures |r| <= |SplitOn(s, c)| && r == SplitOn(s, c)[..|r|]
    ensures forall k :: |r| <= k < |SplitOn(s, c)| ==> SplitOn(s, c)[k] == ""
    ensures forall k :: 0 <= k < |r| ==> c !in r[k]
    ensures r == [] || r[|r| - 1] != ""
  {
    DropTrailingEmpty(SplitOn(s, c))
  }

  // ---------------------------------------------------------------------------
  // Integer#to_s

  function DigitChar(d: nat): (r: char)
    requires d < 10
    ensures IsDigit(r)
  {
    ('0' as int + d) as char
  }

  function DigitValue(c: char): nat
    requires IsDigit(c)
  {
    c as int - '0' as int
  }

  /** Decimal rendering of a natural number without leading zeros. */
  function NatToString(n: nat): (r: string)
    ensures |r| >= 1
    ensures forall i :: 0 <= i < |r| ==> IsDigit(r[i])
    ensures r[0] == '0' ==> n == 0
  {
    if n < 10 then [DigitChar(n)] else NatToString(n / 10) + [DigitChar(n % 10)]
  }

  predicate AllDigits(s: string) {
    forall i :: 0 <= i < |s| ==> IsDigit(s[i])
  }

  /** Reads a string of decimal digits. */
  function ParseNat(s: string): nat
    requires AllDigits(s)
  {
    if s == [] then 0 else 10 * ParseNat(s[..|s| - 1]) + DigitValue(s[|s| - 1])
  }

  /** Leading zeros do not change the value read. */
  lemma {:induction false} ParseNatLeadingZero(s: string)
    requires AllDigits(s)
    ensures AllDigits("0" + s) && ParseNat("0" + s) == ParseNat(s)
  {
    if s != [] {
      ParseNatLeadingZero(s[..|s| - 1]);
      assert ("0" + s)[..|s|] == "0" + s[..|s| - 1];
    }
  }

  lemma {:induction false} ParseNatToString(n: nat)
    ensures ParseNat(NatToString(n)) == n
  {
    var s := NatToString(n);
    if n >= 10 {
      ParseNatToString(n / 10);
      assert s[..|s| - 1] == NatToString(n / 10);
    }
  }

  function Pow10(k: nat): nat {
    if k == 0 then 1 else 10 * Pow10(k - 1)
  }

  /** A number has at most `k` decimal digits exactly when it is below 10^k. */
  lemma {:induction false} NatToStringLength(n: nat, k: nat)
    requires k >= 1
    ensures |NatToString(n)| <= k <==> n < Pow10(k)
  {
    if n >= 10 {
      if k == 1 {
        assert Pow10(1) == 10;
      } else {
        NatToStringLength(n / 10, k - 1);
      }
    } else {
      PowAtLeastTen(k);
    }
  }

  lemma {:induction false} PowAtLeastTen(k: nat)
    requires k >= 1
    ensures Pow10(k) >= 10
  {
    if k > 1 {
      PowAtLeastTen(k - 1);
    }
  }

  /** `Integer#to_s` */
  function IntToString(n: int): (r: string)
    ensures |r| >= 1
    ensures n >= 0 ==> forall i :: 0 <= i < |r| ==> IsDigit(r[i])
    ensures n < 0 ==> r[0] == '-'
  {
    if n < 0 then "-" + NatToString(-n) else NatToString(n)
  }
}
